=== FILE: README.md ===
# csvtochat persistence layer in Dafny

This project models the local persistence layer of csvtochat, a chat-with-your-CSV web
application, and the code that sits directly on that layer. It also proves properties of
the model. The pieces are:

- **the local fixed-window rate limiter**: a per-fingerprint counter `{count, resetTime}`
  stored under `limit:<fingerprint>`, with a quota of 50 messages per 24-hour window;
- **the local key-value store**: one JSON file per key, placed in `data/chats`,
  `data/limits` or `data/` by the key's prefix;
- **the local upload store**: CSV files kept under `data/uploads/<id><ext>` and served at
  `/api/files/<key>`;
- **the storage factory**: a memoised choice between the Redis adapter and the local
  adapter;
- **the code rewriter**: it inlines uploaded CSV files into Python code as `StringIO`
  variables;
- **the upload endpoint's `POST` handler**.

The filesystem is an abstract `Disk`: a set of directories, a map from `(directory, name)`
to `(content, mtime)`, and a set of *broken* paths on which every I/O call fails. Each
`try`/`catch` of the source is therefore an explicit error branch in the model. The
following values enter the model as parameters:

- the clock (`now`);
- `generateId` (`id`);
- the random variable-name suffixes;
- the order in which `readdir` lists a directory;
- `Buffer.toString('utf-8')` (`decode`).

Modules, one per file:

| file | module | models |
|---|---|---|
| `results.dfy` | `Results` | `Option` (a nullable value), `Result` (a call that may throw), `Reply` (new state and return value) |
| `strings.dfy` | `Strings` | `startsWith`, `endsWith`, `includes`, `indexOf`, `replace` with a string pattern, `split(c).pop()` |
| `decimal.dfy` | `Decimal` | integer text as `JSON.stringify` writes it and `JSON.parse` reads it |
| `filesystem.dfy` | `FileSystem` | the abstract disk and the expiry sweep shared by both stores |
| `local_storage.dfy` | `LocalStorage` | `LocalStorage` |
| `limits.dfy` | `RateLimit` | the local branches of `getRemainingMessages` and `limitMessages` |
| `local_upload.dfy` | `LocalUpload` | `LocalUploadService` and `path.extname` |
| `storage_adapter.dfy` | `StorageAdapter` | `StorageFactory` and the adapters |
| `coding.dfy` | `Coding` | `downloadFileContent` and `processCodeWithFiles` |
| `upload_route.dfy` | `UploadRoute` | `POST /api/local-upload` |

Several behaviours of the code are modelled as written, even where one might expect
otherwise:

- **Sweeps.** In both expiry sweeps the whole loop sits inside one `try`. So the first
  `stat` or `unlink` that fails ends the sweep, and the model says how far it got.
- **Expired peek.** A peek (`getRemainingMessages`) on an expired window does write a
  renewed record.
- **Window boundary.** A window expires only when `now > resetTime`. At
  `now == resetTime` the old window still applies.
- **Chat keys.** `getChatKeys` removes the *first* `.json` of a file name, not the
  trailing one. So a chat id that itself contains `.json` is listed under a different key
  than it was stored with. `LocalStorage.ChatKeyListedAfterSet` therefore requires the id
  to contain no `.json`.
- **Name edge cases.** The upload endpoint accepts a file named exactly `.csv`. Its
  extension is then empty (`path.extname(".csv") == ""`), so it is stored under the bare
  id. A file whose MIME type is `text/csv` passes the type check whatever its name.
- **Text form field.** A non-empty text value in the `file` field is not a `File`.
  Reading its `.name` throws, so the request ends in the catch-all 500 rather than a 400.

## Model

| member | source | states |
|---|---|---|
| FileSystem.Sweep | src/lib/local-storage.ts:123-141 | the sweep removes exactly the expired candidates among the names it got through and changes nothing else; it stops at the first candidate whose `stat`/`unlink` fails, so every candidate before the stop was readable |
| FileSystem.DoomedOfFullListing | src/lib/local-upload.ts:84-92 | over a whole listing, the files a sweep deletes are exactly the expired candidate files of that directory |
| LocalStorage.EnsureInitialized | src/lib/local-storage.ts:28-33 | the first call creates `data`, `data/chats` and `data/limits`; later calls change nothing; files are never touched |
| LocalStorage.InitializeOnce | src/lib/local-storage.ts:28-33 | initialising twice is the same as initialising once |
| LocalStorage.Resolve | src/lib/local-storage.ts:39-50 | a `chat:` key maps to the chats directory as the rest of the key plus `.json`; otherwise a `limit:` key maps to the limits directory; any other key maps to the data directory as the key plus `.json` |
| LocalStorage.ResolveInjective | src/lib/local-storage.ts:39-50 | different keys never share a file |
| LocalStorage.NamespacesDisjoint | src/lib/local-storage.ts:39-50 | `chat:x`, `limit:x` and `x` are three different files |
| LocalStorage.Set | src/lib/local-storage.ts:35-52 | on success the key's file holds exactly the value, stamped `now`, and no other file changes; on failure no file changes; on an initialised store it fails exactly when the key's path is broken |
| LocalStorage.Get | src/lib/local-storage.ts:54-76 | returns the file's content when the file exists and is readable, and null otherwise; it writes nothing |
| LocalStorage.Del | src/lib/local-storage.ts:78-98 | removes the key's file when it can, never fails, and leaves every other file alone |
| LocalStorage.Exists | src/lib/local-storage.ts:100-103 | true exactly when `get` returns a value, which is exactly when the file exists and is readable |
| LocalStorage.SetThenGet | src/lib/local-storage.ts:35-76 | after a successful `set(k, v)`, `get(k)` returns `v` |
| LocalStorage.SetLeavesOtherKeys | src/lib/local-storage.ts:35-52 | `set(k, v)` does not change `get` for any other key |
| LocalStorage.DelThenGet | src/lib/local-storage.ts:78-103 | after `del(k)`, `get(k)` is null and `exists(k)` is false |
| LocalStorage.DelAbsentKey | src/lib/local-storage.ts:78-98 | deleting a key that has no value changes no file |
| LocalStorage.ChatKeysOf | src/lib/local-storage.ts:111-113 | every `.json` name is listed as `chat:` plus the name with its first `.json` removed, and every listed key comes from such a `.json` name, so other files are skipped |
| LocalStorage.GetChatKeys | src/lib/local-storage.ts:106-117 | the listing writes nothing; it is empty when the chats directory is missing, and otherwise it is the keys derived from the directory's listing |
| LocalStorage.StripJsonSuffix | src/lib/local-storage.ts:113 | removing the first `.json` from `id + ".json"` gives back `id` when `id` has no `.json` of its own |
| LocalStorage.ListedChatKeyHasFile | src/lib/local-storage.ts:106-117 | every listed key comes from a `.json` file stored in the chats directory |
| LocalStorage.ChatKeyListedAfterSet | src/lib/local-storage.ts:106-117 | after `set("chat:" + id, v)` succeeds, `getChatKeys` lists `"chat:" + id` |
| LocalStorage.CleanupExpiredFiles | src/lib/local-storage.ts:120-142 | only `.json` chat files older than `now - 7 days` (strictly) are removed: exactly those among the names before the stop, none after it; the stop is at the first broken `.json` file, and without one every expired chat file is removed |
| Decimal.NatRoundTrip | src/lib/limits.ts:52 | a natural number printed in canonical decimal parses back to itself |
| Decimal.IntRoundTrip | src/lib/limits.ts:52 | an integer printed as `JSON.stringify` prints it parses back to itself |
| RateLimit.Decode | src/lib/limits.ts:51-58 | a counter is recognised only in text of the form `{"count":…}` |
| RateLimit.DecodeEncode | src/lib/limits.ts:61-64 | a counter written by `setLocalRateLimit` reads back as the same counter |
| RateLimit.Load | src/lib/limits.ts:40-59 | an absent, empty or unparsable record reads as `{0, now + 24h}`, a stored record reads as itself, and the read writes nothing |
| RateLimit.Save | src/lib/limits.ts:61-64 | a successful write stores the counter so that it reads back, and touches no other record; a failed write changes nothing |
| RateLimit.StoredAfterSet | src/lib/limits.ts:61-64 | a successful `set` of the encoded counter reads back as that counter |
| RateLimit.GetRemainingMessages | src/lib/limits.ts:77-96 | in an active window (`now <= resetTime`) the peek writes nothing and returns `max(0, 50 - count)` and the stored reset; in an expired window it stores `{0, now + 24h}` and returns 50; the remaining count is never negative; no other file, no directory and no fault changes |
| RateLimit.LimitMessages | src/lib/limits.ts:110-139 | an expired window stores `{1, now + 24h}` and returns 49; an active window at 50 or more throws "Too many messages" and writes nothing; otherwise it stores `count + 1` with the same reset and returns `50 - (count + 1)`; no other record changes |
| RateLimit.PeekStep | src/lib/limits.ts:93-96 | a peek inside the window on a count of at most 50 returns `50 - count` and the stored reset |
| RateLimit.FirstConsume | src/lib/limits.ts:114-121 | the first consume for a fingerprint without a record opens a window ending at `now + 24h` and returns 49 |
| RateLimit.ConsumeAtLimit | src/lib/limits.ts:124-126 | in an active window at the quota, consume throws and the stored counter stays as it was |
| RateLimit.ConsumeBelowLimit | src/lib/limits.ts:129-139 | in an active window below the quota on a writable record, consume succeeds, stores `count + 1` and returns `50 - (count + 1)` |
| RateLimit.ConsumeStep | src/lib/limits.ts:123-139 | one consume inside the window counts up to 50 and then fails without counting |
| RateLimit.ConsumeKeepsWithinQuota | src/lib/limits.ts:123-133 | consume preserves `count <= 50` for the stored record |
| RateLimit.LimitKeysDistinct | src/lib/limits.ts:40-42 | different fingerprints use different record files |
| RateLimit.ConsumeLeavesOthers | src/lib/limits.ts:110-139 | a consume for one fingerprint leaves every other fingerprint's counter unchanged |
| RateLimit.ConsumeWithinWindow | src/lib/limits.ts:123-139 | a run of consumes inside one window, starting from count `c`, returns `50 - (c + i + 1)` for the `i`-th call while `c + i < 50`, and "Too many messages" from then on |
| RateLimit.RunCount | src/lib/limits.ts:123-139 | after a run of consumes inside the window, the record holds the starting count plus the number of calls, capped at 50 |
| RateLimit.PeekAfterConsumes | src/lib/limits.ts:93-96 | from no record, after `n` consumes inside the first window a peek in that window reports `50 - min(n, 50)` left and the window's reset |
| RateLimit.FiftyThenTooMany | src/lib/limits.ts:110-139 | from no record, the first 50 consumes inside the window opened by the first one return 49, 48, …, 0, and every later one throws |
| LocalUpload.EnsureInitialized | src/lib/local-upload.ts:20-25 | the first call creates the uploads directory; later calls change nothing; files are never touched |
| LocalUpload.TrimTrailingSlashes | src/lib/local-upload.ts:32 | removes exactly the trailing `/` characters of a name |
| LocalUpload.Extname | src/lib/local-upload.ts:32 | the extension is a suffix of the last path segment that is empty or starts with its only `.`, holds no `/`, and is empty for a segment without `.` |
| LocalUpload.ExtnameIsLastDotTail | src/lib/local-upload.ts:32 | the extension is non-empty exactly when the last segment is not `..` and has a `.` after its first character; with the suffix facts above it is then the tail from the last `.` |
| LocalUpload.CsvExtension | src/lib/local-upload.ts:32 | a plain name ending in `.csv` after at least one other character has extension `.csv` |
| LocalUpload.ExtnameWithoutDot | src/lib/local-upload.ts:32 | a name without `.` has an empty extension |
| LocalUpload.UploadFile | src/lib/local-upload.ts:28-48 | on success the key is the id followed by the original name's extension, the URL is `/api/files/` + key, and the key's file holds exactly the bytes, with no other file changed; on failure no file changes; on an initialised service it fails exactly when the key's path is broken; directories are only initialised and faults are unchanged |
| LocalUpload.GetFile | src/lib/local-upload.ts:51-61 | returns the stored bytes when the file exists and is readable, and null otherwise |
| LocalUpload.DeleteFile | src/lib/local-upload.ts:64-73 | removes the file when it can, never fails, and leaves every other file alone; directories are only initialised and faults are unchanged |
| LocalUpload.GetFileInfo | src/lib/local-upload.ts:99-112 | null exactly when `getFile` is null; otherwise the size is the stored byte length and the time is the file's modification time |
| LocalUpload.CleanupExpiredFiles | src/lib/local-upload.ts:76-96 | only uploads older than `now - 24h` (strictly, whatever their suffix) are removed: exactly those among the names before the stop, none after it; the stop is at the first broken file, and without one every expired upload is removed |
| LocalUpload.UploadCsv | src/lib/local-upload.ts:31-47 | uploading `name.csv` gives key `id + ".csv"`, and both key and URL end in `.csv` |
| LocalUpload.UploadWithoutExtension | src/lib/local-upload.ts:31-33 | a name without `.` gives the bare id as key |
| LocalUpload.UploadThenGet | src/lib/local-upload.ts:28-61 | after a successful upload, `getFile(key)` returns exactly the uploaded bytes, and `getFileInfo(key)` reports their length and the upload time |
| LocalUpload.UploadLeavesOthers | src/lib/local-upload.ts:34-39 | an upload does not change `getFile` for any other name |
| LocalUpload.UploadKeysDistinct | src/lib/local-upload.ts:31-34 | distinct ids without `.` give distinct keys, whatever the original names |
| LocalUpload.DeleteThenGet | src/lib/local-upload.ts:64-73 | after `deleteFile`, `getFile` and `getFileInfo` are null |
| StorageAdapter.GetStorageAdapter | src/lib/storage-adapter.ts:82-109 | a cached adapter is returned as is; otherwise Redis is chosen exactly when URL and token are both non-empty and the client can be built, and the choice is cached |
| StorageAdapter.GetUploadAdapter | src/lib/storage-adapter.ts:112-134 | always the local upload adapter, with or without S3 configuration, and cached |
| StorageAdapter.Reset | src/lib/storage-adapter.ts:137-140 | both caches are cleared |
| StorageAdapter.SelectionIsMemoised | src/lib/storage-adapter.ts:82-134 | after the first call, later calls return the same adapter whatever the environment |
| StorageAdapter.ResetReselects | src/lib/storage-adapter.ts:137-140 | after `reset`, selection runs again from the current environment |
| StorageAdapter.AdapterExists | src/lib/storage-adapter.ts:36-39 | for Redis, `exists` is true exactly when the key is present (the `EXISTS` reply is 1) and reads nothing else |
| StorageAdapter.ExistsMatchesGet | src/lib/storage-adapter.ts:36-58 | for both adapters, `exists` agrees with `get` returning a value |
| StorageAdapter.AdapterRoundTrip | src/lib/storage-adapter.ts:20-59 | through either adapter (Redis taken as an exact string store, see below), a successful `set` is read back by `get`, and `del` makes `get` return null |
| StorageAdapter.LocalAdapterForwards | src/lib/storage-adapter.ts:43-59 | the local adapter returns exactly what the local store returns |
| StorageAdapter.UploadAdapterRoundTrip | src/lib/storage-adapter.ts:62-74 | through the upload adapter, an upload is read back exactly, and a delete makes it unreadable |
| Strings.AfterLast | src/lib/coding.ts:38 | `split('/').pop()` is the longest slash-free tail of the string |
| Coding.RunLength | src/lib/coding.ts:62 | the run of `[^"'\s)]` characters is maximal |
| Coding.FindMatches | src/lib/coding.ts:62-63 | every match is `/api/files/` followed by allowed characters, and there are none exactly when the pattern matches nowhere |
| Coding.MatchPositions | src/lib/coding.ts:62-63 | each match is the piece of code at a position where the pattern matches, running to the end of the maximal allowed run; the matches come left to right without overlap; nothing matches before the first, between two, or after the last |
| Coding.DownloadFileContent | src/lib/coding.ts:35-53 | an empty last segment is an invalid URL and leaves the service untouched; otherwise the service is initialised, a missing or unreadable file is "not found", and a stored, readable file yields `Ok` of its decoded bytes, and only then is the result `Ok`; no file is written |
| Coding.DownloadReadsOnlyFiles | src/lib/coding.ts:44 | a download's outcome depends only on the stored files, not on the initialisation flag |
| Coding.InlineFile | src/lib/coding.ts:81-94 | the first `"url"` becomes `StringIO(var)`, one variable line is prepended, and the import line is prepended exactly when the result lacks `import StringIO`; afterwards the code always imports `StringIO` |
| Coding.NextRewrite | src/lib/coding.ts:71-97 | one loop step: a failed download keeps the code as it was (the catch), a successful one inlines the downloaded text under `csv_data_<suffix>`; no file is written |
| Coding.InlineAll | src/lib/coding.ts:71-99 | the loop over the matches writes no file |
| Coding.InlineOne | src/lib/coding.ts:71-97 | the loop over one match is exactly one step: that match is inlined when its download succeeds and skipped when it fails |
| Coding.InlineAllSplit | src/lib/coding.ts:70-99 | the loop over `a + b` is the loop over `a` and then the loop over `b` from where it stopped: every match is processed in turn and a failed one does not end the loop |
| Coding.InlineAllSnoc | src/lib/coding.ts:70-99 | after the matches `a` and one more, the code is that match's step applied to the code after `a` |
| Coding.ReadableFileInlined | src/lib/coding.ts:44-49 | a locator naming a stored, readable upload is inlined with that file's decoded bytes |
| Coding.ProcessCodeWithFiles | src/lib/coding.ts:60-102 | code without a match comes back unchanged and the service untouched; in every case no file is written |
| Coding.ProcessIsLoopOverMatches | src/lib/coding.ts:60-102 | the result is the loop over every match the scan finds, from the original code, with no import added yet |
| Coding.UnquotedUrlStays | src/lib/coding.ts:85-89 | a locator that is not double-quoted is not replaced, but its variable line is still prepended |
| Coding.InlineKeepsImport | src/lib/coding.ts:92-94 | once the code imports `StringIO`, a further match keeps the import and adds none |
| Coding.NoImportOnceImported | src/lib/coding.ts:71-99 | once the code imports `StringIO`, the rest of the loop adds no import line |
| Coding.ImportAddedAtMostOnce | src/lib/coding.ts:71-99 | the loop adds the import line at most once |
| Coding.ProcessAddsImportAtMostOnce | src/lib/coding.ts:92-94 | `processCodeWithFiles` adds `from io import StringIO` at most once, and never when the code already imports `StringIO` |
| Coding.FailedDownloadsChangeNothing | src/lib/coding.ts:95-98 | when every download fails, the code comes back unchanged |
| UploadRoute.Post | src/app/api/local-upload/route.ts:4-49 | the status is 200, 400 or 500; it is 200 exactly for a CSV file (by type or by name) of at most 30 MiB whose upload succeeds, and then the body carries the upload's URL and key and echoes size and name; any other status has an error body and stores nothing; it is 500 with "Failed to upload file" exactly for an unreadable form, a non-empty text value, or a CSV within the limit whose upload fails |
| UploadRoute.ChecksInOrder | src/app/api/local-upload/route.ts:9-31 | a missing file gives 400 "No file provided"; then a non-CSV file gives 400 "Only CSV files are allowed"; then an oversized CSV gives 400 "File size must be less than 30MB" |
| UploadRoute.RejectedStoresNothing | src/app/api/local-upload/route.ts:9-34 | a 400 leaves the upload service untouched, so upload was never called |
| UploadRoute.SizeLimitInclusive | src/app/api/local-upload/route.ts:25-31 | a CSV of at most 31 457 280 bytes, that size included, is accepted when the store can take it |
| UploadRoute.EitherCsvSignSuffices | src/app/api/local-upload/route.ts:17-22 | `POST` answers 400 "Only CSV files are allowed", whatever the size, exactly when the type is not `text/csv` and the name does not end in `.csv` |
| UploadRoute.AcceptedIsStored | src/app/api/local-upload/route.ts:34-41 | after a 200, the returned key reads back the uploaded bytes |

## Left out

- The Upstash branches of `getRemainingMessages` and `limitMessages`: an external service; the model takes `ratelimit` to be undefined.
- StorageAdapter.AdapterRoundTrip: the Redis server and client are idealised as an exact `map<string, string>` whose `set`, `get` and `del` never fail, so the Redis half of the round trip (and of `StorageAdapter.ExistsMatchesGet`) holds by that definition. Network failures, rejected calls and the client's reply deserialisation are not modelled.
- RateLimit.Decode: only the exact text `JSON.stringify` writes for a counter is parsed. Other JSON that `JSON.parse` would accept (spaces, other key orders, fractions, extra fields) reads as unparsable and so as a fresh `{0, now + 24h}`. The counter fields are integers, not IEEE doubles.
- RateLimit.LimitMessages: the source reads `Date.now()` twice (once inside `getLocalRateLimit`, once after); the model uses one `now` for both reads.
- RateLimit.GetRemainingMessages: likewise reads `Date.now()` twice (in the caller, then inside `getLocalRateLimit`); the model uses one `now` for both reads.
- `path.join` normalisation: a file name is an opaque string within a directory, so a key holding `/` or `..` is not resolved to another directory.
- A failing `mkdir` inside `ensureInitialized`: creating directories always succeeds in the model. Other `readdir` failures (apart from a missing directory) are not modelled either.
- Concurrency: the unsynchronised read-modify-write in the limiter and the non-atomic `initialized` flags. Only sequential executions are modelled.
- `Date.now`, `generateId`, `Math.random` and `readdir`'s order are parameters (`now`, `id`, the variable-name suffixes, a listing). Nothing requires the ids or suffixes to be fresh; the lemmas that need distinct ids say so.
- LocalUpload.GetFileInfo: one fault set covers `stat` and `readFile` alike, so a file that can be stat'ed but not read (where `getFileInfo` answers and `getFile` is null) is not modelled.
- `Buffer.toString('utf-8')` is the parameter `decode`. The regular expression runs over Unicode characters rather than UTF-16 code units.
- `runPython` and the code interpreter call: a remote API.
- The page component, the SDK client set-up and the file-serving route are not part of this model.
- `FormData` parsing and `NextResponse` plumbing: a request body is either unreadable or the value of its `file` field. Console logging is dropped.
- The S3 environment variables are read but do not change the upload adapter; the model reads them and ignores them the same way.
- Coding.ProcessCodeWithFiles: its own contract states only the no-match case and that no file is written. `Coding.ProcessIsLoopOverMatches` ties it to the loop over every match, `Coding.InlineAllSplit`, `Coding.InlineAllSnoc` and `Coding.InlineOne` give that loop match by match, and `Coding.InlineFile` gives each step's effect.

=== FILE: coding.dfy ===
/** The code rewriter that runs before Python is sent to the interpreter: every local file
    locator `/api/files/<name>` found in the code is replaced by an in-memory `StringIO` over the
    file's text, which is prepended to the code as a variable. */
module Coding {
  import opened Results
  import opened Strings
  import opened LocalUpload
  import opened FileSystem

  /** `\s` in a JavaScript regular expression: white space and line terminators. */
  predicate IsJsSpace(c: char) {
    || c == '\t' || c == '\n' || c == '\U{000B}' || c == '\U{000C}' || c == '\r' || c == ' '
    || c == '\U{00A0}' || c == '\U{1680}' || ('\U{2000}' <= c <= '\U{200A}')
    || c == '\U{2028}' || c == '\U{2029}' || c == '\U{202F}' || c == '\U{205F}'
    || c == '\U{3000}' || c == '\U{FEFF}'
  }

  /** The character class `[^"'\s)]` of the locator pattern. */
  predicate IsUrlChar(c: char) {
    c != '"' && c != '\'' && !IsJsSpace(c) && c != ')'
  }

  /** A string the pattern `/\/api\/files\/[^"'\s)]+/` matches in full. */
  predicate IsFileUrl(u: string) {
    StartsWith(u, FilesRoute) && |u| > |FilesRoute|
    && forall k :: |FilesRoute| <= k < |u| ==> IsUrlChar(u[k])
  }

  /** The length of the longest run of `[^"'\s)]` characters starting at `i`. */
  function RunLength(code: string, i: nat): (n: nat)
    requires i <= |code|
    decreases |code| - i
    ensures i + n <= |code|
    ensures forall k :: i <= k < i + n ==> IsUrlChar(code[k])
    ensures i + n == |code| || !IsUrlChar(code[i + n])
  {
    if i < |code| && IsUrlChar(code[i]) then 1 + RunLength(code, i + 1) else 0
  }

  /** The pattern matches at `i`: the locator prefix followed by at least one allowed character. */
  predicate MatchesAt(code: string, i: nat) {
    OccursAt(code, FilesRoute, i) && i + |FilesRoute| < |code| && IsUrlChar(code[i + |FilesRoute|])
  }

  /** Where the match starting at `i` ends: after the longest run of allowed characters. */
  function MatchEnd(code: string, i: nat): (e: nat)
    ensures MatchesAt(code, i) ==> i + |FilesRoute| < e <= |code|
    ensures MatchesAt(code, i) ==> e == |code| || !IsUrlChar(code[e])
  {
    if MatchesAt(code, i) then i + |FilesRoute| + RunLength(code, i + |FilesRoute|) else i
  }

  /** The pattern matches nowhere in `[lo, hi)`. */
  predicate NoMatchIn(code: string, lo: nat, hi: nat) {
    forall i: nat :: lo <= i < hi ==> !MatchesAt(code, i)
  }

  /** `ms[k]` is the maximal match that starts at `starts[k]`, a position at or after `from`. */
  predicate Located(code: string, from: nat, ms: seq<string>, starts: seq<nat>) {
    && |starts| == |ms|
    && forall k :: 0 <= k < |starts| ==>
         && from <= starts[k] && MatchesAt(code, starts[k]) && MatchEnd(code, starts[k]) <= |code|
         && ms[k] == code[starts[k]..MatchEnd(code, starts[k])]
  }

  /** Each match starts after the previous one ends, and nothing matches in between. */
  predicate Ordered(code: string, starts: seq<nat>) {
    forall k :: 0 <= k < |starts| - 1 ==>
      MatchEnd(code, starts[k]) <= starts[k + 1] && NoMatchIn(code, MatchEnd(code, starts[k]), starts[k + 1])
  }

  /** Nothing matches before the first match, nor after the last one (nor anywhere without one). */
  predicate Exhaustive(code: string, from: nat, starts: seq<nat>) {
    && (|starts| == 0 ==> NoMatchIn(code, from, |code|))
    && (|starts| > 0 ==> NoMatchIn(code, from, starts[0]) && NoMatchIn(code, MatchEnd(code, starts[|starts| - 1]), |code|))
  }

  /** `code.match(pattern)` with the `g` flag, scanning from `from`: leftmost matches, each as
      long as possible, the scan resuming after each one. */
  function FindMatches(code: string, from: nat): (ms: seq<string>)
    requires from <= |code|
    decreases |code| - from
    ensures forall k :: 0 <= k < |ms| ==> IsFileUrl(ms[k])
    ensures ms == [] <==> forall i: nat :: from <= i < |code| ==> !MatchesAt(code, i)
  {
    if from == |code| then []
    else if MatchesAt(code, from) then
      var n := RunLength(code, from + |FilesRoute|);
      var m := code[from..from + |FilesRoute| + n];
      assert m[..|FilesRoute|] == FilesRoute;
      [m] + FindMatches(code, from + |FilesRoute| + n)
    else
      FindMatches(code, from + 1)
  }

  /** Why a download failed: `filename` was empty, or `getFile` returned null. */
  datatype DownloadError = InvalidFileUrl | FileNotFound

  /** `downloadFileContent`: the text of the uploaded file named by the locator's last segment.
      `decode` stands for `Buffer.toString('utf-8')`. An empty segment throws before the upload
      service is called, so only a non-empty one initialises it. */
  function DownloadFileContent(s: Service, url: string, decode: seq<byte> -> string)
    : (r: Reply<Service, Result<string, DownloadError>>)
    ensures r.state.disk.files == s.disk.files && r.state.disk.broken == s.disk.broken
    ensures AfterLast(url, '/') == [] ==> r == Reply(s, Err(InvalidFileUrl))
    ensures AfterLast(url, '/') != [] ==> r.state == EnsureInitialized(s)
    ensures AfterLast(url, '/') != [] && GetFile(s, AfterLast(url, '/')).value.None? ==> r.value == Err(FileNotFound)
    ensures r.value.Ok? ==> GetFile(s, AfterLast(url, '/')).value.Some?
                            && r.value.value == decode(GetFile(s, AfterLast(url, '/')).value.value)
    ensures AfterLast(url, '/') != [] && GetFile(s, AfterLast(url, '/')).value.Some? ==>
              r.value == Ok(decode(GetFile(s, AfterLast(url, '/')).value.value))
  {
    var filename := AfterLast(url, '/');
    if filename == [] then Reply(s, Err(InvalidFileUrl))
    else
      var g := GetFile(s, filename);
      match g.value
      case None => Reply(g.state, Err(FileNotFound))
      case Some(bytes) => Reply(g.state, Ok(decode(bytes)))
  }

  /** What a download returns depends only on the stored files, not on whether the service was
      initialised yet. */
  lemma DownloadReadsOnlyFiles(s: Service, t: Service, url: string, decode: seq<byte> -> string)
    requires s.disk.files == t.disk.files && s.disk.broken == t.disk.broken
    ensures DownloadFileContent(s, url, decode).value == DownloadFileContent(t, url, decode).value
  {
  }

  const ImportText: string := "from io import StringIO"
  const ImportLine: string := "from io import StringIO\n"
  const ShortImportText: string := "import StringIO"

  /** The generated variable name; `suffix` stands for the nine base-36 digits `Math.random` gave. */
  function VarName(suffix: string): string {
    "csv_data_" + suffix
  }

  function VarLine(name: string, content: string): string {
    name + " = \"\"\"" + content + "\"\"\"\n"
  }

  function Quoted(url: string): string {
    "\"" + url + "\""
  }

  /** The code being rewritten, with the number of import lines the rewriting has added so far. */
  datatype Rewrite = Rewrite(code: string, importsAdded: nat)

  /** One successfully downloaded match: the first `"url"` becomes `StringIO(name)`, the variable
      line goes in front, and the import goes in front of that unless the code already has one. */
  function InlineFile(w: Rewrite, url: string, name: string, content: string): (r: Rewrite)
    ensures r.importsAdded == w.importsAdded || r.importsAdded == w.importsAdded + 1
    ensures r.importsAdded == w.importsAdded + 1 <==>
              !Contains(VarLine(name, content) + ReplaceFirst(w.code, Quoted(url), "StringIO(" + name + ")"), ShortImportText)
    ensures r.importsAdded == w.importsAdded ==>
              r.code == VarLine(name, content) + ReplaceFirst(w.code, Quoted(url), "StringIO(" + name + ")")
    ensures r.importsAdded == w.importsAdded + 1 ==>
              r.code == ImportLine + VarLine(name, content) + ReplaceFirst(w.code, Quoted(url), "StringIO(" + name + ")")
    ensures Contains(r.code, ShortImportText)
  {
    var replaced := ReplaceFirst(w.code, Quoted(url), "StringIO(" + name + ")");
    var withVar := VarLine(name, content) + replaced;
    if !Contains(withVar, ImportText) && !Contains(withVar, ShortImportText) then
      ImportLineImports(withVar);
      Rewrite(ImportLine + withVar, w.importsAdded + 1)
    else
      assert Contains(withVar, ImportText) ==> Contains(withVar, ShortImportText) by {
        if Contains(withVar, ImportText) {
          ContainsShortImport(withVar);
        }
      }
      Rewrite(withVar, w.importsAdded)
  }

  /** The added import line itself holds `import StringIO`. */
  lemma ImportLineImports(rest: string)
    ensures Contains(ImportLine + rest, ShortImportText)
  {
    assert ImportLine[8..8 + |ShortImportText|] == ShortImportText;
    assert (ImportLine + rest)[8..8 + |ShortImportText|] == ImportLine[8..8 + |ShortImportText|];
    assert OccursAt(ImportLine + rest, ShortImportText, 8);
  }

  /** Any text holding `from io import StringIO` holds `import StringIO`. */
  lemma ContainsShortImport(s: string)
    requires Contains(s, ImportText)
    ensures Contains(s, ShortImportText)
  {
    var i: nat :| i <= |s| && OccursAt(s, ImportText, i);
    assert s[i + 8..i + 8 + |ShortImportText|] == ImportText[8..];
    assert OccursAt(s, ShortImportText, i + 8);
  }

  /** The loop of `processCodeWithFiles` over the matches, from left to right. A failed download
      leaves the code as it is and the loop goes on with the next match. `suffixes[k]` is the
      random suffix drawn for match `k`. */
  function InlineAll(s: Service, decode: seq<byte> -> string, w: Rewrite, urls: seq<string>, suffixes: seq<string>)
    : (r: Reply<Service, Rewrite>)
    requires |suffixes| >= |urls|
    decreases |urls|
    ensures r.state.disk.files == s.disk.files && r.state.disk.broken == s.disk.broken
  {
    if |urls| == 0 then Reply(s, w)
    else
      var next := NextRewrite(s, decode, w, urls[0], suffixes[0]);
      InlineAll(next.state, decode, next.value, urls[1..], suffixes[1..])
  }

  /** `processCodeWithFiles`: the rewritten code, and the upload service after the downloads
      (which read files and write none). */
  function ProcessCodeWithFiles(s: Service, code: string, decode: seq<byte> -> string, suffixes: seq<string>)
    : (r: Reply<Service, string>)
    requires |suffixes| >= |FindMatches(code, 0)|
    ensures (forall i: nat :: i < |code| ==> !MatchesAt(code, i)) ==> r == Reply(s, code)
    ensures r.state.disk.files == s.disk.files && r.state.disk.broken == s.disk.broken
  {
    var matches := FindMatches(code, 0);
    if matches == [] then Reply(s, code)
    else
      var done := InlineAll(s, decode, Rewrite(code, 0), matches, suffixes);
      Reply(done.state, done.value.code)
  }

  /** The matches are the pieces of `code` the global scan finds, from left to right: `starts`
      holds where each one begins. Each is the maximal match at a position where the pattern
      matches, it is the leftmost such position after the previous match, and nothing matches
      after the last one. */
  lemma {:induction false} MatchPositions(code: string, from: nat) returns (starts: seq<nat>)
    requires from <= |code|
    decreases |code| - from
    ensures Located(code, from, FindMatches(code, from), starts)
    ensures Ordered(code, starts)
    ensures Exhaustive(code, from, starts)
  {
    if from == |code| {
      starts := [];
    } else if MatchesAt(code, from) {
      var e := MatchEnd(code, from);
      var rest := MatchPositions(code, e);
      starts := [from] + rest;
      assert FindMatches(code, from) == [code[from..e]] + FindMatches(code, e);
      LocatedCons(code, from, FindMatches(code, e), rest);
      OrderedCons(code, from, FindMatches(code, e), rest);
      ExhaustiveCons(code, from, rest);
    } else {
      starts := MatchPositions(code, from + 1);
      assert FindMatches(code, from) == FindMatches(code, from + 1);
      ExhaustiveSkip(code, from, FindMatches(code, from), starts);
    }
  }

  lemma LocatedCons(code: string, from: nat, ms: seq<string>, rest: seq<nat>)
    requires MatchesAt(code, from) && Located(code, MatchEnd(code, from), ms, rest)
    ensures Located(code, from, [code[from..MatchEnd(code, from)]] + ms, [from] + rest)
  {
    var starts := [from] + rest;
    var all := [code[from..MatchEnd(code, from)]] + ms;
    forall k | 1 <= k < |starts|
      ensures && from <= starts[k] && MatchesAt(code, starts[k]) && MatchEnd(code, starts[k]) <= |code|
              && all[k] == code[starts[k]..MatchEnd(code, starts[k])]
    {
      assert starts[k] == rest[k - 1] && all[k] == ms[k - 1];
    }
  }

  lemma OrderedCons(code: string, from: nat, ms: seq<string>, rest: seq<nat>)
    requires MatchesAt(code, from) && Located(code, MatchEnd(code, from), ms, rest)
    requires Ordered(code, rest) && Exhaustive(code, MatchEnd(code, from), rest)
    ensures Ordered(code, [from] + rest)
  {
    var starts := [from] + rest;
    forall k | 0 <= k < |starts| - 1
      ensures MatchEnd(code, starts[k]) <= starts[k + 1] && NoMatchIn(code, MatchEnd(code, starts[k]), starts[k + 1])
    {
      if k > 0 {
        assert starts[k] == rest[k - 1] && starts[k + 1] == rest[k];
      } else {
        assert starts[1] == rest[0];
      }
    }
  }

  lemma ExhaustiveCons(code: string, from: nat, rest: seq<nat>)
    requires MatchesAt(code, from) && Exhaustive(code, MatchEnd(code, from), rest)
    ensures Exhaustive(code, from, [from] + rest)
  {
    var starts := [from] + rest;
    if |rest| > 0 {
      assert starts[|starts| - 1] == rest[|rest| - 1];
    }
  }

  lemma ExhaustiveSkip(code: string, from: nat, ms: seq<string>, starts: seq<nat>)
    requires from < |code| && !MatchesAt(code, from)
    requires Located(code, from + 1, ms, starts) && Exhaustive(code, from + 1, starts)
    ensures Exhaustive(code, from, starts)
  {
  }

  /** A single-quoted (or unquoted) locator is not replaced, but its variable line is still prepended. */
  lemma UnquotedUrlStays(w: Rewrite, url: string, name: string, content: string)
    requires !Contains(w.code, Quoted(url))
    ensures var r := InlineFile(w, url, name, content);
      r.code == VarLine(name, content) + w.code || r.code == ImportLine + VarLine(name, content) + w.code
  {
  }

  /** An occurrence of a text without `"` but with a space survives replacing the first
      occurrence of a quoted, space-free text. */
  lemma ContainsSurvivesReplace(s: string, p: string, q: string, t: string)
    requires Contains(s, p)
    requires |q| >= 2 && q[0] == '"' && q[|q| - 1] == '"'
    requires '"' !in p && ' ' in p && ' ' !in q
    ensures Contains(ReplaceFirst(s, q, t), p)
  {
    if Contains(s, q) {
      var j: nat :| j <= |s| && OccursAt(s, p, j);
      SurvivesReplaceAt(s, p, q, t, j);
    }
  }

  lemma SurvivesReplaceAt(s: string, p: string, q: string, t: string, j: nat)
    requires OccursAt(s, p, j) && Contains(s, q)
    requires |q| >= 2 && q[0] == '"' && q[|q| - 1] == '"'
    requires '"' !in p && ' ' in p && ' ' !in q
    ensures Contains(ReplaceFirst(s, q, t), p)
  {
    ReplaceFirstAtIndex(s, q, t);
    var m := IndexOf(s, q).value;
    OccurrencesDisjoint(s, p, q, j, m);
    OccurrenceOutsideSurvives(s, p, j, m, |q|, t);
  }

  /** An occurrence of `p` that does not overlap `s[m..m + n]` is still there once that slice is replaced. */
  lemma OccurrenceOutsideSurvives(s: string, p: string, j: nat, m: nat, n: nat, t: string)
    requires OccursAt(s, p, j) && m + n <= |s|
    requires j + |p| <= m || j >= m + n
    ensures Contains(s[..m] + t + s[m + n..], p)
  {
    var r := s[..m] + t + s[m + n..];
    if j + |p| <= m {
      assert r[j..j + |p|] == s[j..j + |p|];
      assert OccursAt(r, p, j);
    } else {
      var j' := j - n + |t|;
      assert r[j'..j' + |p|] == s[j..j + |p|];
      assert OccursAt(r, p, j');
    }
  }

  /** An occurrence of a text without `"` but with a space cannot overlap an occurrence of a
      quoted, space-free text. */
  lemma OccurrencesDisjoint(s: string, p: string, q: string, j: nat, m: nat)
    requires OccursAt(s, p, j) && OccursAt(s, q, m)
    requires |q| >= 2 && q[0] == '"' && q[|q| - 1] == '"'
    requires '"' !in p && ' ' in p && ' ' !in q
    ensures j + |p| <= m || j >= m + |q|
  {
    CharOfOccurrence(s, q, m, m);
    CharOfOccurrence(s, q, m, m + |q| - 1);
    CharOfOccurrence(s, p, j, m);
    CharOfOccurrence(s, p, j, m + |q| - 1);
    var k :| 0 <= k < |p| && p[k] == ' ';
    CharOfOccurrence(s, p, j, j + k);
    CharOfOccurrence(s, q, m, j + k);
  }

  /** A character inside an occurrence of `p` is a character of `p`. */
  lemma CharOfOccurrence(s: string, p: string, j: nat, x: int)
    requires OccursAt(s, p, j)
    ensures j <= x < j + |p| ==> s[x] == p[x - j] && s[x] in p
  {
    if j <= x < j + |p| {
      assert s[x] == s[j..j + |p|][x - j];
    }
  }

  lemma ShortImportShape()
    ensures '"' !in ShortImportText && ' ' in ShortImportText
  {
    assert ShortImportText[6] == ' ';
  }

  /** A quoted locator holds no space. */
  lemma QuotedUrlShape(url: string)
    requires IsFileUrl(url)
    ensures |Quoted(url)| >= 2 && Quoted(url)[0] == '"' && Quoted(url)[|Quoted(url)| - 1] == '"'
    ensures ' ' !in Quoted(url)
  {
    var q := Quoted(url);
    forall k | 0 <= k < |q|
      ensures q[k] != ' '
    {
      if 1 <= k < |q| - 1 {
        assert q[k] == url[k - 1];
        if k - 1 < |FilesRoute| {
          assert url[k - 1] == FilesRoute[k - 1];
        } else {
          assert IsUrlChar(url[k - 1]);
        }
      }
    }
  }

  /** A successful match keeps an existing `import StringIO` and adds no import. */
  lemma InlineKeepsImport(w: Rewrite, url: string, name: string, content: string)
    requires IsFileUrl(url)
    requires Contains(w.code, ShortImportText)
    ensures InlineFile(w, url, name, content).importsAdded == w.importsAdded
    ensures Contains(InlineFile(w, url, name, content).code, ShortImportText)
  {
    ShortImportShape();
    QuotedUrlShape(url);
    var replaced := ReplaceFirst(w.code, Quoted(url), "StringIO(" + name + ")");
    ContainsSurvivesReplace(w.code, ShortImportText, Quoted(url), "StringIO(" + name + ")");
    ContainsAfterPrepend(VarLine(name, content), replaced, ShortImportText);
  }

  /** One step of the loop: the rewrite after the first match. */
  function NextRewrite(s: Service, decode: seq<byte> -> string, w: Rewrite, url: string, suffix: string)
    : (r: Reply<Service, Rewrite>)
    ensures r.state.disk.files == s.disk.files && r.state.disk.broken == s.disk.broken
    ensures DownloadFileContent(s, url, decode).value.Err? ==> r.value == w
    ensures DownloadFileContent(s, url, decode).value.Ok? ==>
              r.value == InlineFile(w, url, VarName(suffix), DownloadFileContent(s, url, decode).value.value)
  {
    var d := DownloadFileContent(s, url, decode);
    match d.value
    case Err(_) => Reply(d.state, w)
    case Ok(content) => Reply(d.state, InlineFile(w, url, VarName(suffix), content))
  }

  /** A locator whose last segment names a stored, readable upload is inlined with that file's
      decoded bytes. */
  lemma ReadableFileInlined(s: Service, decode: seq<byte> -> string, w: Rewrite, url: string, suffix: string)
    requires AfterLast(url, '/') != []
    requires Path(UploadsDir, AfterLast(url, '/')) in s.disk.files
    requires Path(UploadsDir, AfterLast(url, '/')) !in s.disk.broken
    ensures InlineAll(s, decode, w, [url], [suffix]).value
         == InlineFile(w, url, VarName(suffix), decode(s.disk.files[Path(UploadsDir, AfterLast(url, '/'))].content))
  {
    var next := NextRewrite(s, decode, w, url, suffix);
    assert InlineAll(s, decode, w, [url], [suffix]) == InlineAll(next.state, decode, next.value, [], []);
  }

  /** A single match is one loop step. */
  lemma InlineOne(s: Service, decode: seq<byte> -> string, w: Rewrite, url: string, suffix: string)
    ensures InlineAll(s, decode, w, [url], [suffix]) == NextRewrite(s, decode, w, url, suffix)
  {
    var next := NextRewrite(s, decode, w, url, suffix);
    assert InlineAll(s, decode, w, [url], [suffix]) == InlineAll(next.state, decode, next.value, [], []);
  }

  /** The loop over `a + b` is the loop over `a` followed by the loop over `b`, started from the
      service and rewrite the first part left behind: every match is processed in turn, and a
      failed one does not end the loop. */
  lemma {:induction false} InlineAllSplit(s: Service, decode: seq<byte> -> string, w: Rewrite,
                                          a: seq<string>, b: seq<string>, sa: seq<string>, sb: seq<string>)
    requires |sa| == |a| && |sb| >= |b|
    ensures var first := InlineAll(s, decode, w, a, sa);
      InlineAll(s, decode, w, a + b, sa + sb) == InlineAll(first.state, decode, first.value, b, sb)
    decreases |a|
  {
    if |a| > 0 {
      var next := NextRewrite(s, decode, w, a[0], sa[0]);
      assert (a + b)[0] == a[0] && (a + b)[1..] == a[1..] + b;
      assert (sa + sb)[0] == sa[0] && (sa + sb)[1..] == sa[1..] + sb;
      InlineAllSplit(next.state, decode, next.value, a[1..], b, sa[1..], sb);
    } else {
      assert a + b == b && sa + sb == sb;
    }
  }

  /** The loop's invariant: after the matches `a` and one more, the rewrite is that match's step
      applied to the rewrite after `a`. */
  lemma InlineAllSnoc(s: Service, decode: seq<byte> -> string, w: Rewrite,
                      a: seq<string>, sa: seq<string>, url: string, suffix: string)
    requires |sa| == |a|
    ensures var prev := InlineAll(s, decode, w, a, sa);
      InlineAll(s, decode, w, a + [url], sa + [suffix]) == NextRewrite(prev.state, decode, prev.value, url, suffix)
  {
    var prev := InlineAll(s, decode, w, a, sa);
    InlineAllSplit(s, decode, w, a, [url], sa, [suffix]);
    InlineOne(prev.state, decode, prev.value, url, suffix);
  }

  /** `processCodeWithFiles` is the loop over all the matches of the scan, the empty list included,
      so `InlineAllSplit` and `InlineAllSnoc` describe it match by match. */
  lemma ProcessIsLoopOverMatches(s: Service, code: string, decode: seq<byte> -> string, suffixes: seq<string>)
    requires |suffixes| >= |FindMatches(code, 0)|
    ensures var done := InlineAll(s, decode, Rewrite(code, 0), FindMatches(code, 0), suffixes);
      ProcessCodeWithFiles(s, code, decode, suffixes) == Reply(done.state, done.value.code)
  {
  }

  /** Once the code holds `import StringIO`, later matches keep it and add no import. */
  lemma {:induction false} NoImportOnceImported(s: Service, decode: seq<byte> -> string, w: Rewrite,
                                                 urls: seq<string>, suffixes: seq<string>)
    requires |suffixes| >= |urls|
    requires forall k :: 0 <= k < |urls| ==> IsFileUrl(urls[k])
    requires Contains(w.code, ShortImportText)
    ensures InlineAll(s, decode, w, urls, suffixes).value.importsAdded == w.importsAdded
    ensures Contains(InlineAll(s, decode, w, urls, suffixes).value.code, ShortImportText)
    decreases |urls|
  {
    if |urls| > 0 {
      var next := NextRewrite(s, decode, w, urls[0], suffixes[0]);
      var d := DownloadFileContent(s, urls[0], decode);
      if d.value.Ok? {
        InlineKeepsImport(w, urls[0], VarName(suffixes[0]), d.value.value);
      }
      NoImportOnceImported(next.state, decode, next.value, urls[1..], suffixes[1..]);
    }
  }

  /** The import line is added at most once over the whole rewriting. */
  lemma {:induction false} ImportAddedAtMostOnce(s: Service, decode: seq<byte> -> string, w: Rewrite,
                                                  urls: seq<string>, suffixes: seq<string>)
    requires |suffixes| >= |urls|
    requires forall k :: 0 <= k < |urls| ==> IsFileUrl(urls[k])
    ensures InlineAll(s, decode, w, urls, suffixes).value.importsAdded <= w.importsAdded + 1
    ensures Contains(w.code, ShortImportText) ==> InlineAll(s, decode, w, urls, suffixes).value.importsAdded == w.importsAdded
    decreases |urls|
  {
    if Contains(w.code, ShortImportText) {
      NoImportOnceImported(s, decode, w, urls, suffixes);
    } else if |urls| > 0 {
      var next := NextRewrite(s, decode, w, urls[0], suffixes[0]);
      if next.value.importsAdded == w.importsAdded {
        ImportAddedAtMostOnce(next.state, decode, next.value, urls[1..], suffixes[1..]);
      } else {
        NoImportOnceImported(next.state, decode, next.value, urls[1..], suffixes[1..]);
      }
    }
  }

  /** `processCodeWithFiles` adds `from io import StringIO` at most once, and not at all when
      the code already imports `StringIO`. */
  lemma ProcessAddsImportAtMostOnce(s: Service, code: string, decode: seq<byte> -> string, suffixes: seq<string>)
    requires |suffixes| >= |FindMatches(code, 0)|
    ensures InlineAll(s, decode, Rewrite(code, 0), FindMatches(code, 0), suffixes).value.importsAdded <= 1
    ensures Contains(code, ShortImportText) ==>
              InlineAll(s, decode, Rewrite(code, 0), FindMatches(code, 0), suffixes).value.importsAdded == 0
  {
    ImportAddedAtMostOnce(s, decode, Rewrite(code, 0), FindMatches(code, 0), suffixes);
  }

  /** When no download succeeds, the code comes back unchanged. */
  lemma {:induction false} FailedDownloadsChangeNothing(s: Service, decode: seq<byte> -> string, w: Rewrite,
                                                         urls: seq<string>, suffixes: seq<string>)
    requires |suffixes| >= |urls|
    requires forall k :: 0 <= k < |urls| ==> DownloadFileContent(s, urls[k], decode).value.Err?
    ensures InlineAll(s, decode, w, urls, suffixes).value == w
    decreases |urls|
  {
    if |urls| > 0 {
      var next := NextRewrite(s, decode, w, urls[0], suffixes[0]);
      assert DownloadFileContent(s, urls[0], decode).value.Err?;
      forall k | 0 <= k < |urls[1..]|
        ensures DownloadFileContent(next.state, urls[1..][k], decode).value.Err?
      {
        assert urls[1..][k] == urls[k + 1];
        DownloadReadsOnlyFiles(next.state, s, urls[k + 1], decode);
      }
      FailedDownloadsChangeNothing(next.state, decode, w, urls[1..], suffixes[1..]);
    }
  }
}

=== FILE: decimal.dfy ===
/** Decimal text for integers, as `JSON.stringify` writes them and `JSON.parse` reads them back
    (`-?(0|[1-9][0-9]*)`; fractions and exponents are outside this model). */
module Decimal {
  import opened Results

  predicate IsDigit(c: char) {
    '0' <= c <= '9'
  }

  predicate AllDigits(s: string) {
    forall i :: 0 <= i < |s| ==> IsDigit(s[i])
  }

  function DigitChar(d: nat): (c: char)
    requires d < 10
    ensures IsDigit(c)
  {
    (48 + d) as char
  }

  function DigitValue(c: char): (d: nat)
    requires IsDigit(c)
    ensures d < 10
  {
    (c as int) - 48
  }

  /** Canonical JSON form of a natural number: digits, no leading zero unless the number is 0. */
  predicate IsCanonical(s: string) {
    |s| > 0 && AllDigits(s) && (s[0] == '0' ==> |s| == 1)
  }

  function NatToString(n: nat): (s: string)
    decreases n
    ensures IsCanonical(s)
    ensures n > 0 ==> s[0] != '0'
  {
    if n < 10 then [DigitChar(n)] else NatToString(n / 10) + [DigitChar(n % 10)]
  }

  /** The number a run of digits denotes, most significant digit first. */
  function DigitsValue(s: string): nat
    requires AllDigits(s)
  {
    if |s| == 0 then 0 else DigitsValue(s[..|s| - 1]) * 10 + DigitValue(s[|s| - 1])
  }

  function ParseNat(s: string): (r: Option<nat>)
    ensures r.Some? <==> IsCanonical(s)
  {
    if IsCanonical(s) then Some(DigitsValue(s)) else None
  }

  lemma {:induction false} DigitsValueOfNatToString(n: nat)
    ensures DigitsValue(NatToString(n)) == n
    decreases n
  {
    if n >= 10 {
      DigitsValueOfNatToString(n / 10);
      var s := NatToString(n);
      assert s[..|s| - 1] == NatToString(n / 10);
    }
  }

  /** Printing a natural number and parsing it back is the identity. */
  lemma NatRoundTrip(n: nat)
    ensures ParseNat(NatToString(n)) == Some(n)
  {
    DigitsValueOfNatToString(n);
  }

  function IntToString(i: int): (s: string)
    ensures |s| > 0
    ensures forall k :: 0 <= k < |s| ==> IsDigit(s[k]) || s[k] == '-'
  {
    if i < 0 then "-" + NatToString(-i) else NatToString(i)
  }

  /** `JSON.parse` of an integer literal; `-0` reads as 0. */
  function ParseInt(s: string): (r: Option<int>)
    ensures r.Some? ==> (|s| > 0 && s[0] == '-' ==> r.value <= 0)
    ensures r.Some? && !(|s| > 0 && s[0] == '-') ==> r.value >= 0
  {
    if |s| > 0 && s[0] == '-' then
      match ParseNat(s[1..])
      case Some(n) => Some(-(n as int))
      case None => None
    else
      match ParseNat(s)
      case Some(n) => Some(n as int)
      case None => None
  }

  /** Printing an integer and parsing it back is the identity. */
  lemma IntRoundTrip(i: int)
    ensures ParseInt(IntToString(i)) == Some(i)
  {
    if i < 0 {
      NatRoundTrip(-i);
      assert IntToString(i)[1..] == NatToString(-i);
    } else {
      NatRoundTrip(i);
    }
  }
}

=== FILE: filesystem.dfy ===
/** An abstract local filesystem: directories, files with contents and modification times,
    and a set of paths on which every operation fails with an I/O error. */
module FileSystem {
  import opened Results

  /** The directories the persistence layer uses: `data`, `data/chats`, `data/limits`, `data/uploads`. */
  datatype Dir = DataDir | ChatsDir | LimitsDir | UploadsDir

  datatype Path = Path(dir: Dir, name: string)

  datatype Entry<C> = Entry(content: C, mtime: int)

  /** `broken` holds the paths that cannot be read, written, stat'ed or removed
      (a permission problem or a damaged file). */
  datatype Disk<C> = Disk(dirs: set<Dir>, files: map<Path, Entry<C>>, broken: set<Path>)

  /** The errno classes the model distinguishes: ENOENT and everything else. */
  datatype IoError = NoEntry | AccessDenied

  function ReadFile<C>(d: Disk<C>, p: Path): Result<C, IoError> {
    if p !in d.files then Err(NoEntry)
    else if p in d.broken then Err(AccessDenied)
    else Ok(d.files[p].content)
  }

  function Stat<C>(d: Disk<C>, p: Path): Result<Entry<C>, IoError> {
    if p !in d.files then Err(NoEntry)
    else if p in d.broken then Err(AccessDenied)
    else Ok(d.files[p])
  }

  /** `fs.writeFile`: creates or fully replaces the file and stamps it with `now`. */
  function WriteFile<C>(d: Disk<C>, p: Path, content: C, now: int): Result<Disk<C>, IoError> {
    if p.dir !in d.dirs then Err(NoEntry)
    else if p in d.broken then Err(AccessDenied)
    else Ok(d.(files := d.files[p := Entry(content, now)]))
  }

  /** `fs.unlink`. */
  function Unlink<C>(d: Disk<C>, p: Path): Result<Disk<C>, IoError> {
    if p !in d.files then Err(NoEntry)
    else if p in d.broken then Err(AccessDenied)
    else Ok(d.(files := d.files - {p}))
  }

  /** `fs.mkdir(dir, { recursive: true })` for each directory of `ds`. */
  function MakeDirs<C>(d: Disk<C>, ds: set<Dir>): Disk<C> {
    d.(dirs := d.dirs + ds)
  }

  /** `names` is what `fs.readdir(dir)` may return: every file of `dir` exactly once, in some order. */
  predicate IsListing<C>(d: Disk<C>, dir: Dir, names: seq<string>) {
    && (forall i, j :: 0 <= i < j < |names| ==> names[i] != names[j])
    && (forall i :: 0 <= i < |names| ==> Path(dir, names[i]) in d.files)
    && (forall p :: p in d.files && p.dir == dir ==> p.name in names)
  }

  /** The paths among `names` that a sweep deletes when nothing fails: files selected by
      `candidate` whose modification time is strictly before `cutoff`. */
  function Doomed<C>(d: Disk<C>, dir: Dir, names: seq<string>, cutoff: int, candidate: string -> bool): set<Path> {
    set n | n in names && candidate(n) && Path(dir, n) in d.files && d.files[Path(dir, n)].mtime < cutoff :: Path(dir, n)
  }

  /** Extending the examined prefix of a listing by one name adds at most that name's path to
      the doomed set, and that path was not doomed before. */
  lemma DoomedStep<C>(d: Disk<C>, dir: Dir, names: seq<string>, i: nat, cutoff: int, candidate: string -> bool)
    requires IsListing(d, dir, names) && i < |names|
    ensures Path(dir, names[i]) !in Doomed(d, dir, names[..i], cutoff, candidate)
    ensures var p := Path(dir, names[i]);
      Doomed(d, dir, names[..i + 1], cutoff, candidate)
      == Doomed(d, dir, names[..i], cutoff, candidate)
         + (if candidate(names[i]) && d.files[p].mtime < cutoff then {p} else {})
  {
    forall k | 0 <= k < i ensures names[k] != names[i] { }
    assert names[..i + 1] == names[..i] + [names[i]];
  }

  /** The loop body shared by both expiry sweeps: for each listed candidate, `stat` it and
      `unlink` it when it is older than `cutoff`. The whole loop sits in one `try`, so the
      first failing `stat` or `unlink` abandons the rest; `reached` is where that happened. */
  method Sweep<C>(d: Disk<C>, dir: Dir, names: seq<string>, cutoff: int, candidate: string -> bool)
    returns (r: Disk<C>, reached: nat)
    requires IsListing(d, dir, names)
    ensures reached <= |names|
    ensures r.dirs == d.dirs && r.broken == d.broken
    ensures r.files == d.files - Doomed(d, dir, names[..reached], cutoff, candidate)
    ensures reached < |names| ==> candidate(names[reached]) && Path(dir, names[reached]) in d.broken
    ensures forall k :: 0 <= k < reached && candidate(names[k]) ==> Path(dir, names[k]) !in d.broken
  {
    r := d;
    reached := 0;
    while reached < |names|
      invariant reached <= |names|
      invariant r.dirs == d.dirs && r.broken == d.broken
      invariant r.files == d.files - Doomed(d, dir, names[..reached], cutoff, candidate)
      invariant forall k :: 0 <= k < reached && candidate(names[k]) ==> Path(dir, names[k]) !in d.broken
    {
      var name := names[reached];
      var p := Path(dir, name);
      DoomedStep(d, dir, names, reached, cutoff, candidate);
      if candidate(name) {
        match Stat(r, p) {
          case Err(_) =>
            return;
          case Ok(e) =>
            if e.mtime < cutoff {
              match Unlink(r, p) {
                case Err(_) =>
                  return;
                case Ok(r') =>
                  r := r';
              }
            }
        }
      }
      reached := reached + 1;
    }
  }

  /** Over a whole listing, the doomed set is every expired candidate file of `dir`: a sweep
      that gets through the listing deletes exactly those. */
  lemma DoomedOfFullListing<C>(d: Disk<C>, dir: Dir, names: seq<string>, cutoff: int, candidate: string -> bool)
    requires IsListing(d, dir, names)
    ensures Doomed(d, dir, names, cutoff, candidate)
         == set p | p in d.files && p.dir == dir && candidate(p.name) && d.files[p].mtime < cutoff
  {
  }
}

=== FILE: limits.dfy ===
/** The local fixed-window rate limiter: a per-fingerprint counter `{count, resetTime}` kept
    in the key-value store under `limit:<fingerprint>` as the JSON text `JSON.stringify` writes. */
module RateLimit {
  import opened Results
  import opened Strings
  import opened Decimal
  import opened FileSystem
  import opened LocalStorage

  /** Fifty messages per fingerprint per window. */
  const DailyLimit: int := 50

  /** The window length: 24 hours in milliseconds. */
  const WindowMs: int := 24 * 60 * 60 * 1000

  datatype Counter = Counter(count: int, resetTime: int)

  /** What `getRemainingMessages` and a successful `limitMessages` report. */
  datatype Quota = Quota(remaining: int, reset: int)

  /** `TooManyMessages` is the "Too many messages" error; a failed write of the counter surfaces as `StorageFailure`. */
  datatype LimitError = TooManyMessages | StorageFailure(cause: IoError)

  const CountField: string := "{\"count\":"
  const ResetField: string := ",\"resetTime\":"

  /** `JSON.stringify({count, resetTime})`. */
  function Encode(c: Counter): string {
    CountField + IntToString(c.count) + ResetField + IntToString(c.resetTime) + "}"
  }

  /** `JSON.parse` restricted to the layout `Encode` produces; any other text is unparsable. */
  function Decode(text: string): (r: Option<Counter>)
    ensures r.Some? ==> StartsWith(text, CountField) && EndsWith(text, "}")
  {
    if StartsWith(text, CountField) && |text| > |CountField| && text[|text| - 1] == '}' then
      DecodeFields(text[|CountField|..|text| - 1])
    else None
  }

  /** The part between `{"count":` and `}`: two integers separated by `,"resetTime":`. */
  function DecodeFields(body: string): Option<Counter> {
    match IndexOf(body, ResetField)
    case None => None
    case Some(i) =>
      match ParseInt(body[..i])
      case None => None
      case Some(count) =>
        match ParseInt(body[i + |ResetField|..])
        case None => None
        case Some(reset) => Some(Counter(count, reset))
  }

  /** The separator is found right after the printed count, which holds no comma. */
  lemma SeparatorAfterCount(a: string, b: string)
    requires forall k :: 0 <= k < |a| ==> IsDigit(a[k]) || a[k] == '-'
    ensures IndexOf(a + ResetField + b, ResetField) == Some(|a|)
  {
    var body := a + ResetField + b;
    assert body[|a|..|a| + |ResetField|] == ResetField;
    assert OccursAt(body, ResetField, |a|);
    forall j: nat | j < |a|
      ensures !OccursAt(body, ResetField, j)
    {
      assert body[j] == a[j];
    }
  }

  lemma DecodeFieldsOfPrinted(count: int, reset: int)
    ensures DecodeFields(IntToString(count) + ResetField + IntToString(reset)) == Some(Counter(count, reset))
  {
    var a := IntToString(count);
    var b := IntToString(reset);
    var body := a + ResetField + b;
    SeparatorAfterCount(a, b);
    assert body[..|a|] == a;
    assert body[|a| + |ResetField|..] == b;
    IntRoundTrip(count);
    IntRoundTrip(reset);
  }

  /** A stored counter reads back as itself. */
  lemma DecodeEncode(c: Counter)
    ensures Decode(Encode(c)) == Some(c)
  {
    var body := IntToString(c.count) + ResetField + IntToString(c.resetTime);
    assert Encode(c) == CountField + body + "}";
    Unwrap(CountField, body, '}');
    DecodeFieldsOfPrinted(c.count, c.resetTime);
  }

  /** `pre + body + [close]` starts with `pre`, ends with `close`, and holds `body` in between. */
  lemma Unwrap(pre: string, body: string, close: char)
    ensures var t := pre + body + [close];
      && StartsWith(t, pre) && |t| > |pre| && t[|t| - 1] == close && t[|pre|..|t| - 1] == body
  {
    var t := pre + body + [close];
    assert t[..|pre|] == pre;
    assert t[|pre|..|t| - 1] == body;
  }

  function LimitKey(fingerprint: string): string {
    LimitPrefix + fingerprint
  }

  /** The counter the store holds for a fingerprint: `None` when the record is missing,
      unreadable, empty or unparsable. */
  function StoredCounter(s: Store, fingerprint: string): Option<Counter> {
    match Get(s, LimitKey(fingerprint)).value
    case None => None
    case Some(text) => if text == "" then None else Decode(text)
  }

  /** `getLocalRateLimit`: the stored counter, or a renewed `{0, now + 24h}` one. Reading writes nothing. */
  function Load(s: Store, fingerprint: string, now: int): (r: Reply<Store, Counter>)
    ensures r.state == EnsureInitialized(s)
    ensures StoredCounter(s, fingerprint).None? ==> r.value == Counter(0, now + WindowMs)
    ensures StoredCounter(s, fingerprint).Some? ==> r.value == StoredCounter(s, fingerprint).value
  {
    var g := Get(s, LimitKey(fingerprint));
    match g.value
    case None => Reply(g.state, Counter(0, now + WindowMs))
    case Some(text) =>
      if text == "" then Reply(g.state, Counter(0, now + WindowMs))
      else
        match Decode(text)
        case Some(c) => Reply(g.state, c)
        case None => Reply(g.state, Counter(0, now + WindowMs))
  }

  /** `setLocalRateLimit`. */
  function Save(s: Store, fingerprint: string, c: Counter, now: int): (r: Reply<Store, Result<(), IoError>>)
    ensures r.value.Ok? ==> StoredCounter(r.state, fingerprint) == Some(c)
    ensures r.value.Err? ==> r.state.disk.files == s.disk.files
    ensures Valid(s) ==> (r.value.Ok? <==> Resolve(LimitKey(fingerprint)) !in s.disk.broken)
    ensures Valid(s) ==> Valid(r.state)
    ensures r.state.disk.broken == s.disk.broken
    ensures r.state.disk.files - {Resolve(LimitKey(fingerprint))} == s.disk.files - {Resolve(LimitKey(fingerprint))}
  {
    StoredAfterSet(s, fingerprint, c, now);
    Set(s, LimitKey(fingerprint), Encode(c), now)
  }

  /** A successful write of the encoded counter reads back as that counter. */
  lemma StoredAfterSet(s: Store, fingerprint: string, c: Counter, now: int)
    ensures Set(s, LimitKey(fingerprint), Encode(c), now).value.Ok? ==>
              StoredCounter(Set(s, LimitKey(fingerprint), Encode(c), now).state, fingerprint) == Some(c)
  {
    var w := Set(s, LimitKey(fingerprint), Encode(c), now);
    if w.value.Ok? {
      DecodeEncode(c);
      assert Get(w.state, LimitKey(fingerprint)).value == Some(Encode(c));
    }
  }

  /** Writes `c` back and answers `q`, or reports the write failure. */
  function Persist(s: Store, fingerprint: string, c: Counter, now: int, q: Quota)
    : (r: Reply<Store, Result<Quota, LimitError>>)
    ensures r.value.Ok? ==> r.value.value == q && StoredCounter(r.state, fingerprint) == Some(c)
    ensures r.value.Err? ==> r.value.error.StorageFailure? && r.state.disk.files == s.disk.files
    ensures Valid(s) ==> (r.value.Ok? <==> Resolve(LimitKey(fingerprint)) !in s.disk.broken)
    ensures Valid(s) ==> Valid(r.state)
    ensures r.state.disk.broken == s.disk.broken
    ensures r.state.disk.files - {Resolve(LimitKey(fingerprint))} == s.disk.files - {Resolve(LimitKey(fingerprint))}
  {
    var w := Save(s, fingerprint, c, now);
    match w.value
    case Ok(_) => Reply(w.state, Ok(q))
    case Err(e) => Reply(w.state, Err(StorageFailure(e)))
  }

  /** The counter a call at `now` works from. */
  function Current(s: Store, fingerprint: string, now: int): Counter {
    Load(s, fingerprint, now).value
  }

  function Max(a: int, b: int): int {
    if a >= b then a else b
  }

  /** The local branch of `getRemainingMessages` (peek). An expired window (`now > resetTime`,
      strictly) is replaced by a renewed one that is written back; an active one is only read. */
  function GetRemainingMessages(s: Store, fingerprint: string, now: int): (r: Reply<Store, Result<Quota, LimitError>>)
    ensures var c := Current(s, fingerprint, now);
      now <= c.resetTime ==>
        && r.state.disk.files == s.disk.files
        && r.value == Ok(Quota(Max(0, DailyLimit - c.count), c.resetTime))
    ensures var c := Current(s, fingerprint, now);
      now > c.resetTime && r.value.Ok? ==>
        && r.value.value == Quota(DailyLimit, now + WindowMs)
        && StoredCounter(r.state, fingerprint) == Some(Counter(0, now + WindowMs))
    ensures r.value.Ok? ==> r.value.value.remaining >= 0
    ensures Valid(s) && Resolve(LimitKey(fingerprint)) !in s.disk.broken ==> r.value.Ok?
    ensures r.value.Err? ==> r.value.error.StorageFailure? && r.state.disk.files == s.disk.files
    ensures Valid(s) ==> Valid(r.state)
    ensures r.state.disk.broken == s.disk.broken
    ensures r.state.disk.files - {Resolve(LimitKey(fingerprint))} == s.disk.files - {Resolve(LimitKey(fingerprint))}
  {
    var l := Load(s, fingerprint, now);
    if now > l.value.resetTime then
      var renewed := Counter(0, now + WindowMs);
      Persist(l.state, fingerprint, renewed, now, Quota(DailyLimit, renewed.resetTime))
    else
      Reply(l.state, Ok(Quota(Max(0, DailyLimit - l.value.count), l.value.resetTime)))
  }

  /** The local branch of `limitMessages` (consume). */
  function LimitMessages(s: Store, fingerprint: string, now: int): (r: Reply<Store, Result<Quota, LimitError>>)
    ensures var c := Current(s, fingerprint, now);
      now > c.resetTime && r.value.Ok? ==>
        && r.value.value == Quota(DailyLimit - 1, now + WindowMs)
        && StoredCounter(r.state, fingerprint) == Some(Counter(1, now + WindowMs))
    ensures var c := Current(s, fingerprint, now);
      now <= c.resetTime && c.count >= DailyLimit ==>
        r.value == Err(TooManyMessages) && r.state.disk.files == s.disk.files
    ensures var c := Current(s, fingerprint, now);
      now <= c.resetTime && c.count < DailyLimit && r.value.Ok? ==>
        && r.value.value == Quota(DailyLimit - (c.count + 1), c.resetTime)
        && StoredCounter(r.state, fingerprint) == Some(Counter(c.count + 1, c.resetTime))
    ensures r.value.Err? ==> r.state.disk.files == s.disk.files
    ensures Valid(s) && Resolve(LimitKey(fingerprint)) !in s.disk.broken ==> !(r.value.Err? && r.value.error.StorageFailure?)
    ensures r.value == Err(TooManyMessages) ==>
      now <= Current(s, fingerprint, now).resetTime && Current(s, fingerprint, now).count >= DailyLimit
    ensures Valid(s) ==> Valid(r.state)
    ensures r.state.disk.broken == s.disk.broken
    ensures r.state.disk.files - {Resolve(LimitKey(fingerprint))} == s.disk.files - {Resolve(LimitKey(fingerprint))}
  {
    var l := Load(s, fingerprint, now);
    if now > l.value.resetTime then
      var renewed := Counter(1, now + WindowMs);
      Persist(l.state, fingerprint, renewed, now, Quota(DailyLimit - 1, renewed.resetTime))
    else if l.value.count >= DailyLimit then
      Reply(l.state, Err(TooManyMessages))
    else
      var next := Counter(l.value.count + 1, l.value.resetTime);
      Persist(l.state, fingerprint, next, now, Quota(DailyLimit - next.count, next.resetTime))
  }

  /** The stored count never exceeds the quota: a consume that would pass it fails instead. */
  predicate WithinQuota(s: Store, fingerprint: string) {
    StoredCounter(s, fingerprint).Some? ==> StoredCounter(s, fingerprint).value.count <= DailyLimit
  }

  /** `limitMessages` preserves `count <= 50`, and it never writes a count above 50. */
  lemma ConsumeKeepsWithinQuota(s: Store, fingerprint: string, now: int)
    requires WithinQuota(s, fingerprint)
    ensures WithinQuota(LimitMessages(s, fingerprint, now).state, fingerprint)
  {
    var r := LimitMessages(s, fingerprint, now);
    if r.value.Err? {
      assert Get(r.state, LimitKey(fingerprint)).value == Get(s, LimitKey(fingerprint)).value;
    }
  }

  /** Different fingerprints use different records. */
  lemma LimitKeysDistinct(a: string, b: string)
    requires a != b
    ensures Resolve(LimitKey(a)) != Resolve(LimitKey(b))
  {
    assert LimitKey(a)[|LimitPrefix|..] == a && LimitKey(b)[|LimitPrefix|..] == b;
    ResolveInjective(LimitKey(a), LimitKey(b));
  }

  /** A consume for one fingerprint leaves every other fingerprint's counter as it was. */
  lemma ConsumeLeavesOthers(s: Store, fingerprint: string, other: string, now: int)
    requires other != fingerprint
    ensures StoredCounter(LimitMessages(s, fingerprint, now).state, other) == StoredCounter(s, other)
  {
    LimitKeysDistinct(fingerprint, other);
    var t := LimitMessages(s, fingerprint, now).state;
    var p := Resolve(LimitKey(other));
    assert p in t.disk.files - {Resolve(LimitKey(fingerprint))} <==> p in s.disk.files - {Resolve(LimitKey(fingerprint))};
    SameRecordSameCounter(s, t, other);
  }

  /** The counter read for a fingerprint depends only on that fingerprint's file. */
  lemma SameRecordSameCounter(s: Store, t: Store, fingerprint: string)
    requires var p := Resolve(LimitKey(fingerprint));
      && (p in s.disk.files <==> p in t.disk.files)
      && (p in s.disk.files ==> s.disk.files[p].content == t.disk.files[p].content)
      && (p in s.disk.broken <==> p in t.disk.broken)
    ensures StoredCounter(s, fingerprint) == StoredCounter(t, fingerprint)
  {
  }

  /** Consecutive `limitMessages` calls for one fingerprint at the given times. */
  function ConsumeRun(s: Store, fingerprint: string, times: seq<int>): (r: Reply<Store, seq<Result<Quota, LimitError>>>)
    ensures |r.value| == |times|
    decreases |times|
  {
    if |times| == 0 then Reply(s, [])
    else
      var first := LimitMessages(s, fingerprint, times[0]);
      var rest := ConsumeRun(first.state, fingerprint, times[1..]);
      Reply(rest.state, [first.value] + rest.value)
  }

  function Min(a: int, b: int): int {
    if a <= b then a else b
  }

  /** What the `i`-th consume of a run that starts at `count = c` returns inside one window. */
  function ExpectedReply(c: int, i: int, reset: int): Result<Quota, LimitError> {
    if c + i < DailyLimit then Ok(Quota(DailyLimit - (c + i + 1), reset)) else Err(TooManyMessages)
  }

  /** The count after one consume inside the window: one more, up to the quota. */
  function Bump(c: int): int {
    if c < DailyLimit then c + 1 else c
  }

  /** A run of consumes all inside the window ending at `reset`, on a readable and writable
      record holding `count = c`. */
  predicate InWindow(s: Store, fingerprint: string, c: int, reset: int, times: seq<int>) {
    && Valid(s) && Resolve(LimitKey(fingerprint)) !in s.disk.broken
    && StoredCounter(s, fingerprint) == Some(Counter(c, reset)) && 0 <= c <= DailyLimit
    && forall i :: 0 <= i < |times| ==> times[i] <= reset
  }

  /** After the first consume of such a run, the rest of the run is again such a run. */
  lemma InWindowStep(s: Store, fingerprint: string, c: int, reset: int, times: seq<int>)
    requires |times| > 0 && InWindow(s, fingerprint, c, reset, times)
    ensures InWindow(LimitMessages(s, fingerprint, times[0]).state, fingerprint, Bump(c), reset, times[1..])
  {
    ConsumeStep(s, fingerprint, c, reset, times[0]);
    forall i | 0 <= i < |times[1..]|
      ensures times[1..][i] <= reset
    {
      assert times[1..][i] == times[i + 1];
    }
  }

  /** One consume inside an active window whose record is readable and writable: it succeeds
      and counts while the count is below 50, and fails without counting from then on. */
  lemma ConsumeStep(s: Store, fingerprint: string, c: int, reset: int, now: int)
    requires Valid(s) && Resolve(LimitKey(fingerprint)) !in s.disk.broken
    requires StoredCounter(s, fingerprint) == Some(Counter(c, reset)) && now <= reset
    ensures LimitMessages(s, fingerprint, now).value == ExpectedReply(c, 0, reset)
    ensures StoredCounter(LimitMessages(s, fingerprint, now).state, fingerprint)
         == Some(Counter(if c < DailyLimit then c + 1 else c, reset))
    ensures Valid(LimitMessages(s, fingerprint, now).state)
    ensures LimitMessages(s, fingerprint, now).state.disk.broken == s.disk.broken
  {
    if c >= DailyLimit {
      ConsumeAtLimit(s, fingerprint, c, reset, now);
    } else {
      ConsumeBelowLimit(s, fingerprint, c, reset, now);
    }
  }

  lemma ConsumeAtLimit(s: Store, fingerprint: string, c: int, reset: int, now: int)
    requires StoredCounter(s, fingerprint) == Some(Counter(c, reset)) && now <= reset && c >= DailyLimit
    ensures LimitMessages(s, fingerprint, now).value == Err(TooManyMessages)
    ensures StoredCounter(LimitMessages(s, fingerprint, now).state, fingerprint) == Some(Counter(c, reset))
  {
    var r := LimitMessages(s, fingerprint, now);
    assert Current(s, fingerprint, now) == Counter(c, reset);
    SameRecordSameCounter(s, r.state, fingerprint);
  }

  lemma ConsumeBelowLimit(s: Store, fingerprint: string, c: int, reset: int, now: int)
    requires Valid(s) && Resolve(LimitKey(fingerprint)) !in s.disk.broken
    requires StoredCounter(s, fingerprint) == Some(Counter(c, reset)) && now <= reset && c < DailyLimit
    ensures LimitMessages(s, fingerprint, now).value == Ok(Quota(DailyLimit - (c + 1), reset))
    ensures StoredCounter(LimitMessages(s, fingerprint, now).state, fingerprint) == Some(Counter(c + 1, reset))
  {
    CurrentIsStored(s, fingerprint, c, reset, now);
    BelowLimitSucceeds(s, fingerprint, c, reset, now);
    BelowLimitReply(s, fingerprint, c, reset, now);
    BelowLimitCount(s, fingerprint, c, reset, now);
  }

  lemma BelowLimitReply(s: Store, fingerprint: string, c: int, reset: int, now: int)
    requires Current(s, fingerprint, now) == Counter(c, reset) && now <= reset && c < DailyLimit
    requires LimitMessages(s, fingerprint, now).value.Ok?
    ensures LimitMessages(s, fingerprint, now).value == Ok(Quota(DailyLimit - (c + 1), reset))
  {
  }

  lemma BelowLimitCount(s: Store, fingerprint: string, c: int, reset: int, now: int)
    requires Current(s, fingerprint, now) == Counter(c, reset) && now <= reset && c < DailyLimit
    requires LimitMessages(s, fingerprint, now).value.Ok?
    ensures StoredCounter(LimitMessages(s, fingerprint, now).state, fingerprint) == Some(Counter(c + 1, reset))
  {
  }

  /** The counter a call works from is the stored one. */
  lemma CurrentIsStored(s: Store, fingerprint: string, c: int, reset: int, now: int)
    requires StoredCounter(s, fingerprint) == Some(Counter(c, reset))
    ensures Current(s, fingerprint, now) == Counter(c, reset)
  {
  }

  lemma BelowLimitSucceeds(s: Store, fingerprint: string, c: int, reset: int, now: int)
    requires Valid(s) && Resolve(LimitKey(fingerprint)) !in s.disk.broken
    requires Current(s, fingerprint, now) == Counter(c, reset) && now <= reset && c < DailyLimit
    ensures LimitMessages(s, fingerprint, now).value.Ok?
  {
  }

  /** A peek inside an active window reports what is left of the quota and writes nothing. */
  lemma PeekStep(s: Store, fingerprint: string, c: int, reset: int, now: int)
    requires StoredCounter(s, fingerprint) == Some(Counter(c, reset)) && now <= reset && c <= DailyLimit
    ensures GetRemainingMessages(s, fingerprint, now).value == Ok(Quota(DailyLimit - c, reset))
  {
    assert Current(s, fingerprint, now) == Counter(c, reset);
  }

  /** The first consume for a fingerprint with no record opens a window and succeeds. */
  lemma FirstConsume(s: Store, fingerprint: string, now: int)
    requires Valid(s) && Resolve(LimitKey(fingerprint)) !in s.disk.broken
    requires StoredCounter(s, fingerprint).None?
    ensures var r := LimitMessages(s, fingerprint, now);
      && r.value == Ok(Quota(DailyLimit - 1, now + WindowMs))
      && StoredCounter(r.state, fingerprint) == Some(Counter(1, now + WindowMs))
      && Valid(r.state) && r.state.disk.broken == s.disk.broken
  {
    assert Current(s, fingerprint, now) == Counter(0, now + WindowMs);
  }

  /** Inside one window, starting from `count = c`, each consume returns the quota left after
      it until the count reaches 50; from then on every consume fails. */
  lemma {:induction false} ConsumeWithinWindow(s: Store, fingerprint: string, c: int, reset: int, times: seq<int>)
    requires InWindow(s, fingerprint, c, reset, times)
    ensures forall i :: 0 <= i < |times| ==> ConsumeRun(s, fingerprint, times).value[i] == ExpectedReply(c, i, reset)
    decreases |times|
  {
    if |times| > 0 {
      var first := LimitMessages(s, fingerprint, times[0]);
      var rest := ConsumeRun(first.state, fingerprint, times[1..]);
      assert first.value == ExpectedReply(c, 0, reset) by {
        ConsumeStep(s, fingerprint, c, reset, times[0]);
      }
      assert forall i :: 0 <= i < |times| - 1 ==> rest.value[i] == ExpectedReply(Bump(c), i, reset) by {
        InWindowStep(s, fingerprint, c, reset, times);
        ConsumeWithinWindow(first.state, fingerprint, Bump(c), reset, times[1..]);
      }
      assert ConsumeRun(s, fingerprint, times).value == [first.value] + rest.value;
      ShiftReplies(ConsumeRun(s, fingerprint, times).value, rest.value, c, reset);
    }
  }

  /** The replies of a run are its first reply followed by the replies of the rest of the run. */
  lemma ShiftReplies(replies: seq<Result<Quota, LimitError>>, rest: seq<Result<Quota, LimitError>>, c: int, reset: int)
    requires |replies| == |rest| + 1 && replies[1..] == rest && replies[0] == ExpectedReply(c, 0, reset)
    requires forall i :: 0 <= i < |rest| ==> rest[i] == ExpectedReply(Bump(c), i, reset)
    ensures forall i :: 0 <= i < |replies| ==> replies[i] == ExpectedReply(c, i, reset)
  {
    forall i | 1 <= i < |replies|
      ensures replies[i] == ExpectedReply(c, i, reset)
    {
      assert replies[i] == rest[i - 1];
    }
  }

  /** From no record, the first 50 consumes inside the window opened by the first one succeed
      with 49, 48, ..., 0 messages left, and every later one fails with "Too many messages". */
  lemma FiftyThenTooMany(s: Store, fingerprint: string, times: seq<int>)
    requires Valid(s) && Resolve(LimitKey(fingerprint)) !in s.disk.broken
    requires StoredCounter(s, fingerprint).None?
    requires |times| > 0 && forall i :: 0 <= i < |times| ==> times[i] <= times[0] + WindowMs
    ensures forall i :: 0 <= i < |times| && i < DailyLimit
              ==> ConsumeRun(s, fingerprint, times).value[i] == Ok(Quota(DailyLimit - 1 - i, times[0] + WindowMs))
    ensures forall i :: DailyLimit <= i < |times|
              ==> ConsumeRun(s, fingerprint, times).value[i] == Err(TooManyMessages)
  {
    var reset := times[0] + WindowMs;
    var first := LimitMessages(s, fingerprint, times[0]);
    FirstConsume(s, fingerprint, times[0]);
    var rest := ConsumeRun(first.state, fingerprint, times[1..]);
    ConsumeWithinWindow(first.state, fingerprint, 1, reset, times[1..]);
    var r := ConsumeRun(s, fingerprint, times);
    assert r.value == [first.value] + rest.value;
    forall i | 0 <= i < |times|
      ensures r.value[i] == ExpectedReply(0, i, reset)
    {
      if i == 0 {
        assert r.value[0] == first.value;
      } else {
        assert r.value[i] == rest.value[i - 1];
        assert ExpectedReply(1, i - 1, reset) == ExpectedReply(0, i, reset);
      }
    }
  }

  /** After a run of consumes inside the window, the record holds the count the run reached:
      one more per call, up to the quota. */
  lemma {:induction false} RunCount(s: Store, fingerprint: string, c: int, reset: int, times: seq<int>)
    requires InWindow(s, fingerprint, c, reset, times)
    ensures InWindow(ConsumeRun(s, fingerprint, times).state, fingerprint, Min(c + |times|, DailyLimit), reset, [])
    decreases |times|
  {
    if |times| > 0 {
      var first := LimitMessages(s, fingerprint, times[0]);
      InWindowStep(s, fingerprint, c, reset, times);
      RunCount(first.state, fingerprint, Bump(c), reset, times[1..]);
      assert Min(Bump(c) + |times[1..]|, DailyLimit) == Min(c + |times|, DailyLimit);
      assert ConsumeRun(s, fingerprint, times).state == ConsumeRun(first.state, fingerprint, times[1..]).state;
    }
  }

  /** Quota monotonicity: from no record, after `n` consumes inside the window the first one
      opened, a peek in that window reports `50 - n` messages left (0 once `n` reaches 50). */
  lemma PeekAfterConsumes(s: Store, fingerprint: string, times: seq<int>, now: int)
    requires Valid(s) && Resolve(LimitKey(fingerprint)) !in s.disk.broken
    requires StoredCounter(s, fingerprint).None?
    requires |times| > 0 && forall i :: 0 <= i < |times| ==> times[i] <= times[0] + WindowMs
    requires now <= times[0] + WindowMs
    ensures GetRemainingMessages(ConsumeRun(s, fingerprint, times).state, fingerprint, now).value
         == Ok(Quota(DailyLimit - Min(|times|, DailyLimit), times[0] + WindowMs))
  {
    var reset := times[0] + WindowMs;
    var first := LimitMessages(s, fingerprint, times[0]);
    FirstConsume(s, fingerprint, times[0]);
    forall i | 0 <= i < |times[1..]|
      ensures times[1..][i] <= reset
    {
      assert times[1..][i] == times[i + 1];
    }
    RunCount(first.state, fingerprint, 1, reset, times[1..]);
    var last := ConsumeRun(s, fingerprint, times).state;
    assert last == ConsumeRun(first.state, fingerprint, times[1..]).state;
    PeekStep(last, fingerprint, Min(|times|, DailyLimit), reset, now);
  }
}

=== FILE: local_storage.dfy ===
/** The filesystem-backed key-value store: one file per key, the directory chosen by the
    key's `chat:` / `limit:` prefix. */
module LocalStorage {
  import opened Results
  import opened Strings
  import opened FileSystem

  const ChatPrefix: string := "chat:"
  const LimitPrefix: string := "limit:"
  const JsonSuffix: string := ".json"

  /** The directories `initDirectories` creates. */
  const StoreDirs: set<Dir> := {DataDir, ChatsDir, LimitsDir}

  /** Chat records older than seven days are swept. */
  const ChatRetentionMs: int := 7 * 24 * 60 * 60 * 1000

  /** The store: the disk it writes to and its `initialized` once-flag. */
  datatype Store = Store(disk: Disk<string>, initialized: bool)

  /** Once the flag is set, the store's directories exist (nothing in the model removes a directory). */
  predicate Valid(s: Store) {
    s.initialized ==> StoreDirs <= s.disk.dirs
  }

  predicate IsJsonName(name: string) {
    EndsWith(name, JsonSuffix)
  }

  /** `ensureInitialized`: creates the three directories on the first call only. */
  function EnsureInitialized(s: Store): (r: Store)
    ensures r.initialized && r.disk.files == s.disk.files && r.disk.broken == s.disk.broken
    ensures s.initialized ==> r == s
    ensures !s.initialized ==> r.disk.dirs == s.disk.dirs + StoreDirs
    ensures Valid(s) ==> Valid(r)
  {
    if s.initialized then
      s
    else
      Store(MakeDirs(s.disk, StoreDirs), true)
  }

  /** The path a key is stored under; `set`, `get` and `del` all use this mapping. */
  function Resolve(key: string): (p: Path)
    ensures StartsWith(key, ChatPrefix) ==> p == Path(ChatsDir, key[|ChatPrefix|..] + JsonSuffix)
    ensures !StartsWith(key, ChatPrefix) && StartsWith(key, LimitPrefix)
            ==> p == Path(LimitsDir, key[|LimitPrefix|..] + JsonSuffix)
    ensures !StartsWith(key, ChatPrefix) && !StartsWith(key, LimitPrefix)
            ==> p == Path(DataDir, key + JsonSuffix)
  {
    if StartsWith(key, ChatPrefix) then
      ReplaceLeadingPrefix(key, ChatPrefix);
      Path(ChatsDir, ReplaceFirst(key, ChatPrefix, "") + JsonSuffix)
    else if StartsWith(key, LimitPrefix) then
      ReplaceLeadingPrefix(key, LimitPrefix);
      Path(LimitsDir, ReplaceFirst(key, LimitPrefix, "") + JsonSuffix)
    else
      Path(DataDir, key + JsonSuffix)
  }

  /** Removing the first occurrence of a prefix the string starts with removes that prefix. */
  lemma ReplaceLeadingPrefix(s: string, prefix: string)
    requires StartsWith(s, prefix)
    ensures ReplaceFirst(s, prefix, "") == s[|prefix|..]
  {
    assert OccursAt(s, prefix, 0);
    var i := IndexOf(s, prefix);
    assert i == Some(0);
  }

  /** `set`: writes `value` verbatim to the key's file, replacing any previous content. */
  function Set(s: Store, key: string, value: string, now: int): (r: Reply<Store, Result<(), IoError>>)
    ensures r.state.initialized && (Valid(s) ==> Valid(r.state)) && r.state.disk.broken == s.disk.broken
    ensures r.value.Ok? ==> r.state.disk.files == s.disk.files[Resolve(key) := Entry(value, now)]
    ensures r.value.Err? ==> r.state.disk.files == s.disk.files
    ensures Valid(s) ==> (r.value.Ok? <==> Resolve(key) !in s.disk.broken)
  {
    var t := EnsureInitialized(s);
    match WriteFile(t.disk, Resolve(key), value, now)
    case Ok(d) => Reply(t.(disk := d), Ok(()))
    case Err(e) => Reply(t, Err(e))
  }

  /** `get`: the stored value, or `None` when the file is missing or cannot be read. */
  function Get(s: Store, key: string): (r: Reply<Store, Option<string>>)
    ensures r.state == EnsureInitialized(s)
    ensures r.value.Some? <==> Resolve(key) in s.disk.files && Resolve(key) !in s.disk.broken
    ensures r.value.Some? ==> r.value.value == s.disk.files[Resolve(key)].content
  {
    var t := EnsureInitialized(s);
    match ReadFile(t.disk, Resolve(key))
    case Ok(v) => Reply(t, Some(v))
    case Err(_) => Reply(t, None)
  }

  /** `del`: removes the key's file; a missing or unremovable file is silently ignored. */
  function Del(s: Store, key: string): (r: Store)
    ensures r.initialized && r.disk.dirs == EnsureInitialized(s).disk.dirs && r.disk.broken == s.disk.broken
    ensures Resolve(key) !in s.disk.broken ==> r.disk.files == s.disk.files - {Resolve(key)}
    ensures Resolve(key) in s.disk.broken ==> r.disk.files == s.disk.files
  {
    var t := EnsureInitialized(s);
    match Unlink(t.disk, Resolve(key))
    case Ok(d) => t.(disk := d)
    case Err(_) => t
  }

  /** `exists`: whether `get` finds a value. */
  function Exists(s: Store, key: string): (r: Reply<Store, bool>)
    ensures r.state == EnsureInitialized(s)
    ensures r.value <==> Get(s, key).value.Some?
    ensures r.value <==> Resolve(key) in s.disk.files && Resolve(key) !in s.disk.broken
  {
    var g := Get(s, key);
    Reply(g.state, g.value != None)
  }

  /** The keys `getChatKeys` derives from a directory listing: every `.json` name, with its first
      `.json` removed and `chat:` put in front, in listing order. */
  function ChatKeysOf(names: seq<string>): (keys: seq<string>)
    ensures |keys| <= |names|
    ensures forall k :: k in keys ==> StartsWith(k, ChatPrefix)
    ensures forall i :: 0 <= i < |names| && IsJsonName(names[i])
              ==> ChatPrefix + ReplaceFirst(names[i], JsonSuffix, "") in keys
    ensures forall k :: k in keys ==>
              exists i :: 0 <= i < |names| && IsJsonName(names[i]) && k == ChatPrefix + ReplaceFirst(names[i], JsonSuffix, "")
  {
    if |names| == 0 then []
    else
      var rest := ChatKeysOf(names[1..]);
      assert forall i :: 1 <= i < |names| ==> names[i] == names[1..][i - 1];
      if IsJsonName(names[0]) then [ChatPrefix + ReplaceFirst(names[0], JsonSuffix, "")] + rest
      else rest
  }

  /** `getChatKeys`: `listing` is the order `readdir` returns the chats directory in; a failing
      `readdir` (the directory is missing) yields the empty list. */
  function GetChatKeys(s: Store, listing: seq<string>): (r: Reply<Store, seq<string>>)
    requires IsListing(s.disk, ChatsDir, listing)
    ensures r.state == EnsureInitialized(s)
    ensures ChatsDir !in r.state.disk.dirs ==> r.value == []
    ensures ChatsDir in r.state.disk.dirs ==> r.value == ChatKeysOf(listing)
    ensures forall k :: k in r.value ==> StartsWith(k, ChatPrefix)
  {
    var t := EnsureInitialized(s);
    if ChatsDir !in t.disk.dirs then Reply(t, []) else Reply(t, ChatKeysOf(listing))
  }

  /** `cleanupExpiredFiles`: deletes `.json` chat files last modified strictly before
      `now - 7 days`. The first failing `stat` or `unlink` ends the sweep; `reached` is the
      number of listed names it got through. */
  method CleanupExpiredFiles(s: Store, now: int, listing: seq<string>) returns (r: Store, reached: nat)
    requires IsListing(s.disk, ChatsDir, listing)
    ensures r.initialized && r.disk.dirs == EnsureInitialized(s).disk.dirs && r.disk.broken == s.disk.broken
    ensures forall p :: p in r.disk.files ==> p in s.disk.files && r.disk.files[p] == s.disk.files[p]
    ensures forall p :: p in s.disk.files && p !in r.disk.files
              ==> p.dir == ChatsDir && IsJsonName(p.name) && s.disk.files[p].mtime < now - ChatRetentionMs
    ensures reached <= |listing|
    ensures ChatsDir in r.disk.dirs ==>
              r.disk.files == s.disk.files - Doomed(s.disk, ChatsDir, listing[..reached], now - ChatRetentionMs, IsJsonName)
    ensures ChatsDir in r.disk.dirs ==>
              forall k :: 0 <= k < reached && IsJsonName(listing[k]) ==> Path(ChatsDir, listing[k]) !in s.disk.broken
    ensures reached < |listing| ==> IsJsonName(listing[reached]) && Path(ChatsDir, listing[reached]) in s.disk.broken
    ensures ChatsDir in r.disk.dirs && reached == |listing| ==>
              forall p :: (p in s.disk.files && p.dir == ChatsDir && IsJsonName(p.name)
                           && s.disk.files[p].mtime < now - ChatRetentionMs) ==> p !in r.disk.files
  {
    var t := EnsureInitialized(s);
    if ChatsDir !in t.disk.dirs {
      return t, |listing|;
    }
    var d;
    d, reached := Sweep(t.disk, ChatsDir, listing, now - ChatRetentionMs, IsJsonName);
    r := t.(disk := d);
  }

  /** Every key is stored under its own file: different keys never share a path. */
  lemma ResolveInjective(k1: string, k2: string)
    ensures Resolve(k1) == Resolve(k2) ==> k1 == k2
  {
    if Resolve(k1) == Resolve(k2) {
      var p := Resolve(k1);
      if p.dir == ChatsDir {
        AppendCancel(k1[|ChatPrefix|..], k2[|ChatPrefix|..], JsonSuffix);
        assert k1 == ChatPrefix + k1[|ChatPrefix|..];
        assert k2 == ChatPrefix + k2[|ChatPrefix|..];
      } else if p.dir == LimitsDir {
        AppendCancel(k1[|LimitPrefix|..], k2[|LimitPrefix|..], JsonSuffix);
        assert k1 == LimitPrefix + k1[|LimitPrefix|..];
        assert k2 == LimitPrefix + k2[|LimitPrefix|..];
      } else {
        AppendCancel(k1, k2, JsonSuffix);
      }
    }
  }

  lemma AppendCancel(a: string, b: string, c: string)
    requires a + c == b + c
    ensures a == b
  {
    assert a == (a + c)[..|a|];
    assert b == (b + c)[..|b|];
  }

  /** `chat:x`, `limit:x` and `x` are three different files. */
  lemma NamespacesDisjoint(x: string)
    ensures Resolve(ChatPrefix + x) != Resolve(LimitPrefix + x)
    ensures Resolve(ChatPrefix + x) != Resolve(x)
    ensures Resolve(LimitPrefix + x) != Resolve(x)
  {
    assert (ChatPrefix + x)[|ChatPrefix|..] == x;
    assert (LimitPrefix + x)[|LimitPrefix|..] == x;
    assert (LimitPrefix + x)[0] != ChatPrefix[0];
    assert Resolve(ChatPrefix + x) == Path(ChatsDir, x + JsonSuffix);
    assert Resolve(LimitPrefix + x) == Path(LimitsDir, x + JsonSuffix);
    assert |Resolve(x).name| < |x + JsonSuffix| || Resolve(x).dir == DataDir;
  }

  /** Round trip: a successful `set` is read back exactly by `get`. */
  lemma SetThenGet(s: Store, key: string, value: string, now: int)
    requires Set(s, key, value, now).value.Ok?
    ensures Get(Set(s, key, value, now).state, key).value == Some(value)
  {
  }

  /** Frame: a `set` changes `get` for no other key. */
  lemma SetLeavesOtherKeys(s: Store, key: string, value: string, now: int, other: string)
    requires other != key
    ensures Get(Set(s, key, value, now).state, other).value == Get(s, other).value
  {
    ResolveInjective(other, key);
  }

  /** `del` never fails, and afterwards `get` (and so `exists`) finds nothing. */
  lemma DelThenGet(s: Store, key: string)
    ensures Get(Del(s, key), key).value == None
    ensures !Exists(Del(s, key), key).value
  {
  }

  /** `del` of a key that has no file changes no file. */
  lemma DelAbsentKey(s: Store, key: string)
    requires Get(s, key).value == None
    ensures Del(s, key).disk.files == s.disk.files
  {
  }

  /** The initialisation runs once: a second call is a no-op. */
  lemma InitializeOnce(s: Store)
    ensures EnsureInitialized(EnsureInitialized(s)) == EnsureInitialized(s)
  {
  }

  /** `ReplaceFirst(id + ".json", ".json", "")` gives back `id` when `id` has no `.json` of its own. */
  lemma StripJsonSuffix(id: string)
    requires !Contains(id, JsonSuffix)
    ensures ReplaceFirst(id + JsonSuffix, JsonSuffix, "") == id
  {
    var n := id + JsonSuffix;
    assert OccursAt(n, JsonSuffix, |id|);
    forall j: nat | j < |id|
      ensures !OccursAt(n, JsonSuffix, j)
    {
      if j + |JsonSuffix| <= |id| {
        assert n[j..j + |JsonSuffix|] == id[j..j + |JsonSuffix|];
        assert !OccursAt(id, JsonSuffix, j);
      } else {
        // the occurrence would straddle the end of `id`: `.json` has no border
        assert n[|id|] == '.';
        assert n[j..j + |JsonSuffix|][|id| - j] == n[|id|];
        assert JsonSuffix[|id| - j] != '.';
      }
    }
    assert IndexOf(n, JsonSuffix) == Some(|id|);
    assert n[..|id|] == id;
  }

  /** After `set("chat:" + id, v)`, `getChatKeys` lists `chat:` + id (for an `id` without `.json`). */
  lemma ChatKeyListedAfterSet(s: Store, id: string, value: string, now: int, listing: seq<string>)
    requires !Contains(id, JsonSuffix)
    requires Set(s, ChatPrefix + id, value, now).value.Ok?
    requires IsListing(Set(s, ChatPrefix + id, value, now).state.disk, ChatsDir, listing)
    ensures ChatPrefix + id in GetChatKeys(Set(s, ChatPrefix + id, value, now).state, listing).value
  {
    var t := Set(s, ChatPrefix + id, value, now).state;
    var key := ChatPrefix + id;
    assert key[|ChatPrefix|..] == id;
    var p := Resolve(key);
    assert p == Path(ChatsDir, id + JsonSuffix);
    assert p in t.disk.files;
    var i :| 0 <= i < |listing| && listing[i] == p.name;
    assert IsJsonName(listing[i]);
    StripJsonSuffix(id);
  }

  /** Conversely, every listed key comes from a `.json` file stored in the chats directory. */
  lemma ListedChatKeyHasFile(s: Store, listing: seq<string>, k: string)
    requires IsListing(s.disk, ChatsDir, listing)
    requires k in GetChatKeys(s, listing).value
    ensures exists name :: Path(ChatsDir, name) in s.disk.files && IsJsonName(name)
              && k == ChatPrefix + ReplaceFirst(name, JsonSuffix, "")
  {
    var i :| 0 <= i < |listing| && IsJsonName(listing[i]) && k == ChatPrefix + ReplaceFirst(listing[i], JsonSuffix, "");
    assert Path(ChatsDir, listing[i]) in s.disk.files;
  }
}

=== FILE: local_upload.dfy ===
/** The filesystem-backed blob store for uploaded CSV files (`data/uploads`). */
module LocalUpload {
  import opened Results
  import opened Strings
  import opened FileSystem

  newtype byte = x: int | 0 <= x < 256

  /** The public route an uploaded file is served from. */
  const FilesRoute: string := "/api/files/"

  /** Uploads older than 24 hours are swept. */
  const UploadRetentionMs: int := 24 * 60 * 60 * 1000

  /** The service: its disk and its `initialized` once-flag. */
  datatype Service = Service(disk: Disk<seq<byte>>, initialized: bool)

  /** What `uploadFile` returns: the public locator and the stored file name. */
  datatype Uploaded = Uploaded(url: string, key: string)

  /** What `getFileInfo` returns. */
  datatype FileInfo = FileInfo(size: nat, mtime: int)

  predicate Valid(s: Service) {
    s.initialized ==> UploadsDir in s.disk.dirs
  }

  /** `ensureInitialized`: creates the uploads directory on the first call only. */
  function EnsureInitialized(s: Service): (r: Service)
    ensures r.initialized && r.disk.files == s.disk.files && r.disk.broken == s.disk.broken
    ensures s.initialized ==> r == s
    ensures !s.initialized ==> r.disk.dirs == s.disk.dirs + {UploadsDir}
    ensures Valid(s) ==> Valid(r)
  {
    if s.initialized then s else Service(MakeDirs(s.disk, {UploadsDir}), true)
  }

  /** `name` without its trailing slashes. */
  function TrimTrailingSlashes(name: string): (r: string)
    ensures StartsWith(name, r)
    ensures r == [] || r[|r| - 1] != '/'
    ensures forall i :: |r| <= i < |name| ==> name[i] == '/'
  {
    if |name| > 0 && name[|name| - 1] == '/' then TrimTrailingSlashes(name[..|name| - 1]) else name
  }

  /** The last path segment, the part `path.extname` looks at. */
  function LastSegment(name: string): (r: string)
    ensures '/' !in r
    ensures forall i :: 0 <= i < |r| ==> r[i] in name
  {
    var t := TrimTrailingSlashes(name);
    assert forall i :: 0 <= i < |t| ==> t[i] == name[i];
    AfterLast(TrimTrailingSlashes(name), '/')
  }

  /** `path.extname`: from the last `.` of the last segment to its end; empty when the segment
      has no `.`, when its only leading `.` starts it (`.bashrc`), or when it is `..`. */
  function Extname(name: string): (e: string)
    ensures e == [] || e[0] == '.'
    ensures forall j :: 0 < j < |e| ==> e[j] != '.' && e[j] != '/'
    ensures '.' !in LastSegment(name) ==> e == []
    ensures EndsWith(LastSegment(name), e)
  {
    var base := LastSegment(name);
    match LastIndexOf(base, '.')
    case None => []
    case Some(d) =>
      if d == 0 || base == ".." then []
      else
        DotTail(base, d);
        base[d..]
  }

  /** The tail of a slash-free segment from its last `.` is a suffix with no other `.` or `/`. */
  lemma DotTail(base: string, d: nat)
    requires '/' !in base && LastIndexOf(base, '.') == Some(d)
    ensures var e := base[d..];
      && e[0] == '.' && EndsWith(base, e)
      && forall j :: 0 < j < |e| ==> e[j] != '.' && e[j] != '/'
  {
    var e := base[d..];
    forall j | 0 < j < |e|
      ensures e[j] != '.' && e[j] != '/'
    {
      assert e[j] == base[d + j];
    }
  }

  /** `path.extname` in full: the extension is non-empty exactly when the last segment has a `.`
      after its first character and is not `..`; it is then the segment's tail from its last `.`. */
  lemma ExtnameIsLastDotTail(name: string)
    ensures var b := LastSegment(name);
      Extname(name) != [] <==> b != ".." && exists d :: 0 < d < |b| && b[d] == '.'
  {
    var b := LastSegment(name);
    var i := LastIndexOf(b, '.');
    if i.Some? && i.value > 0 {
      assert b[i.value] == '.';
    }
  }

  /** The stored name of an upload: the generated id followed by the original extension. */
  function UploadKey(id: string, originalName: string): string {
    id + Extname(originalName)
  }

  /** `uploadFile`: writes the bytes to `uploads/<id><ext>` and returns the file name as key and
      `/api/files/<key>` as locator. `id` is the value `generateId` produced. */
  function UploadFile(s: Service, id: string, originalName: string, content: seq<byte>, now: int)
    : (r: Reply<Service, Result<Uploaded, IoError>>)
    ensures r.state.initialized && (Valid(s) ==> Valid(r.state))
    ensures r.value.Ok? ==> StartsWith(r.value.value.key, id) && r.value.value.url == FilesRoute + r.value.value.key
    ensures r.value.Ok? ==> r.value.value.key == id + Extname(originalName)
    ensures r.value.Ok? ==>
      r.state.disk.files == s.disk.files[Path(UploadsDir, r.value.value.key) := Entry(content, now)]
    ensures r.value.Err? ==> r.state.disk.files == s.disk.files
    ensures Valid(s) ==> (r.value.Ok? <==> Path(UploadsDir, UploadKey(id, originalName)) !in s.disk.broken)
    ensures r.state.disk.dirs == EnsureInitialized(s).disk.dirs && r.state.disk.broken == s.disk.broken
  {
    var t := EnsureInitialized(s);
    var key := UploadKey(id, originalName);
    match WriteFile(t.disk, Path(UploadsDir, key), content, now)
    case Ok(d) => Reply(t.(disk := d), Ok(Uploaded(FilesRoute + key, key)))
    case Err(e) => Reply(t, Err(e))
  }

  /** `getFile`: the stored bytes, or `None` when the file is missing or unreadable. */
  function GetFile(s: Service, key: string): (r: Reply<Service, Option<seq<byte>>>)
    ensures r.state == EnsureInitialized(s)
    ensures r.value.Some? <==> Path(UploadsDir, key) in s.disk.files && Path(UploadsDir, key) !in s.disk.broken
    ensures r.value.Some? ==> r.value.value == s.disk.files[Path(UploadsDir, key)].content
  {
    var t := EnsureInitialized(s);
    match ReadFile(t.disk, Path(UploadsDir, key))
    case Ok(b) => Reply(t, Some(b))
    case Err(_) => Reply(t, None)
  }

  /** `deleteFile`: removes the file; a missing or unremovable file is silently ignored. */
  function DeleteFile(s: Service, key: string): (r: Service)
    ensures r.initialized && r.disk.broken == s.disk.broken && r.disk.dirs == EnsureInitialized(s).disk.dirs
    ensures Path(UploadsDir, key) !in s.disk.broken ==> r.disk.files == s.disk.files - {Path(UploadsDir, key)}
    ensures Path(UploadsDir, key) in s.disk.broken ==> r.disk.files == s.disk.files
  {
    var t := EnsureInitialized(s);
    match Unlink(t.disk, Path(UploadsDir, key))
    case Ok(d) => t.(disk := d)
    case Err(_) => t
  }

  /** `getFileInfo`: size in bytes and modification time, or `None` when `stat` fails. */
  function GetFileInfo(s: Service, key: string): (r: Reply<Service, Option<FileInfo>>)
    ensures r.state == EnsureInitialized(s)
    ensures r.value.Some? <==> GetFile(s, key).value.Some?
    ensures r.value.Some? ==> r.value.value.size == |GetFile(s, key).value.value|
    ensures r.value.Some? ==> r.value.value.mtime == s.disk.files[Path(UploadsDir, key)].mtime
  {
    var t := EnsureInitialized(s);
    match Stat(t.disk, Path(UploadsDir, key))
    case Ok(e) => Reply(t, Some(FileInfo(|e.content|, e.mtime)))
    case Err(_) => Reply(t, None)
  }

  predicate AnyName(name: string) {
    true
  }

  /** `cleanupExpiredFiles`: deletes every upload (whatever its suffix) last modified strictly
      before `now - 24h`. The first failing `stat` or `unlink` ends the sweep; `reached` is the
      number of listed names it got through. */
  method CleanupExpiredFiles(s: Service, now: int, listing: seq<string>) returns (r: Service, reached: nat)
    requires IsListing(s.disk, UploadsDir, listing)
    ensures r.initialized && r.disk.dirs == EnsureInitialized(s).disk.dirs && r.disk.broken == s.disk.broken
    ensures forall p :: p in r.disk.files ==> p in s.disk.files && r.disk.files[p] == s.disk.files[p]
    ensures forall p :: p in s.disk.files && p !in r.disk.files
              ==> p.dir == UploadsDir && s.disk.files[p].mtime < now - UploadRetentionMs
    ensures reached <= |listing|
    ensures UploadsDir in r.disk.dirs ==>
              r.disk.files == s.disk.files - Doomed(s.disk, UploadsDir, listing[..reached], now - UploadRetentionMs, AnyName)
    ensures UploadsDir in r.disk.dirs ==>
              forall k :: 0 <= k < reached ==> Path(UploadsDir, listing[k]) !in s.disk.broken
    ensures reached < |listing| ==> Path(UploadsDir, listing[reached]) in s.disk.broken
    ensures UploadsDir in r.disk.dirs && reached == |listing| ==>
              forall p :: (p in s.disk.files && p.dir == UploadsDir
                           && s.disk.files[p].mtime < now - UploadRetentionMs) ==> p !in r.disk.files
  {
    var t := EnsureInitialized(s);
    if UploadsDir !in t.disk.dirs {
      return t, |listing|;
    }
    var d;
    d, reached := Sweep(t.disk, UploadsDir, listing, now - UploadRetentionMs, AnyName);
    r := t.(disk := d);
  }

  /** A name that ends in `.csv` after at least one other character keeps `.csv` as its extension. */
  lemma CsvExtension(name: string)
    requires '/' !in name && |name| > 4 && EndsWith(name, ".csv")
    ensures Extname(name) == ".csv"
  {
    var n := |name|;
    assert name[n - 4..] == ".csv";
    WholeSegment(name);
    var d := LastDotOfCsv(name);
    assert |name| != |".."|;
  }

  /** A name without `/` is its own last segment. */
  lemma WholeSegment(name: string)
    requires '/' !in name
    ensures LastSegment(name) == name
  {
    assert TrimTrailingSlashes(name) == name;
  }

  /** The last `.` of a name ending in `.csv` is the one that starts the suffix. */
  lemma LastDotOfCsv(name: string) returns (d: nat)
    requires |name| > 4 && name[|name| - 4..] == ".csv"
    ensures LastIndexOf(name, '.') == Some(d) && d == |name| - 4
  {
    var r := LastIndexOf(name, '.');
    assert name[|name| - 4] == '.' && name[|name| - 3] == 'c' && name[|name| - 2] == 's' && name[|name| - 1] == 'v';
    assert r.Some?;
    d := r.value;
    assert d >= |name| - 4;
  }

  /** A name without any `.` has no extension. */
  lemma ExtnameWithoutDot(name: string)
    requires '.' !in name
    ensures Extname(name) == []
  {
    var base := LastSegment(name);
    assert '.' !in base;
  }

  /** Uploading a `.csv` file gives a key and a locator that both end in `.csv`. */
  lemma UploadCsv(s: Service, id: string, originalName: string, content: seq<byte>, now: int)
    requires '/' !in originalName && |originalName| > 4 && EndsWith(originalName, ".csv")
    requires UploadFile(s, id, originalName, content, now).value.Ok?
    ensures var u := UploadFile(s, id, originalName, content, now).value.value;
      u.key == id + ".csv" && EndsWith(u.key, ".csv") && EndsWith(u.url, ".csv")
  {
    CsvExtension(originalName);
    var u := UploadFile(s, id, originalName, content, now).value.value;
    assert u.url == FilesRoute + id + ".csv";
  }

  /** A name without any `.` gives the bare id as key. */
  lemma UploadWithoutExtension(s: Service, id: string, originalName: string, content: seq<byte>, now: int)
    requires '.' !in originalName
    requires UploadFile(s, id, originalName, content, now).value.Ok?
    ensures UploadFile(s, id, originalName, content, now).value.value.key == id
  {
    ExtnameWithoutDot(originalName);
  }

  /** Round trip: after a successful upload, `getFile` on the returned key yields exactly the
      uploaded bytes and `getFileInfo` reports their length and the upload time. */
  lemma UploadThenGet(s: Service, id: string, originalName: string, content: seq<byte>, now: int)
    requires UploadFile(s, id, originalName, content, now).value.Ok?
    ensures var u := UploadFile(s, id, originalName, content, now);
      && GetFile(u.state, u.value.value.key).value == Some(content)
      && GetFileInfo(u.state, u.value.value.key).value == Some(FileInfo(|content|, now))
  {
  }

  /** An upload changes no other stored file. */
  lemma UploadLeavesOthers(s: Service, id: string, originalName: string, content: seq<byte>, now: int, other: string)
    requires other != UploadKey(id, originalName)
    ensures GetFile(UploadFile(s, id, originalName, content, now).state, other).value == GetFile(s, other).value
  {
  }

  /** Distinct generated ids (which never contain `.`) give distinct keys, whatever the original
      names: uploads never overwrite each other. */
  lemma UploadKeysDistinct(id1: string, name1: string, id2: string, name2: string)
    requires id1 != id2 && '.' !in id1 && '.' !in id2
    ensures UploadKey(id1, name1) != UploadKey(id2, name2)
  {
    var e1 := Extname(name1);
    var e2 := Extname(name2);
    if |id1| == |id2| {
      SameLengthIdsDiffer(id1, e1, id2, e2);
    } else if |id1| < |id2| {
      ShorterIdDiffers(id1, e1, id2, e2);
    } else {
      ShorterIdDiffers(id2, e2, id1, e1);
    }
  }

  lemma SameLengthIdsDiffer(id1: string, e1: string, id2: string, e2: string)
    requires |id1| == |id2| && id1 != id2
    ensures id1 + e1 != id2 + e2
  {
    var i :| 0 <= i < |id1| && id1[i] != id2[i];
    assert (id1 + e1)[i] != (id2 + e2)[i];
  }

  /** A key whose id is shorter either ends where the longer id still goes on, or has its `.`
      where the longer id has none. */
  lemma ShorterIdDiffers(id1: string, e1: string, id2: string, e2: string)
    requires |id1| < |id2| && '.' !in id2
    requires e1 == [] || e1[0] == '.'
    ensures id1 + e1 != id2 + e2
  {
    if e1 != [] {
      assert id2[|id1|] != '.';
      assert (id1 + e1)[|id1|] != (id2 + e2)[|id1|];
    }
  }

  /** `deleteFile` never fails, and afterwards `getFile` and `getFileInfo` find nothing. */
  lemma DeleteThenGet(s: Service, key: string)
    ensures GetFile(DeleteFile(s, key), key).value == None
    ensures GetFileInfo(DeleteFile(s, key), key).value == None
  {
  }
}

=== FILE: results.dfy ===
/** Failure-carrying datatypes shared by every module of the model. */
module Results {

  /** A value that may be absent: the model of a TypeScript `T | null`. */
  datatype Option<+T> = None | Some(value: T)

  /** The outcome of an operation that can throw: `Err` stands for the exception. */
  datatype Result<+T, +E> = Ok(value: T) | Err(error: E)

  /** The new state of a stateful service together with what the call returned. */
  datatype Reply<+S, +T> = Reply(state: S, value: T)
}

=== FILE: storage_adapter.dfy ===
/** The storage factory: a memoised, once-only choice between the Redis-backed and the local
    key-value adapter, and of the upload adapter (always the local one). The adapters forward
    every call to their backend. */
module StorageAdapter {
  import opened Results
  import opened FileSystem
  import LocalStorage
  import LocalUpload

  /** The environment variables the factory reads; `None` is an unset variable. */
  datatype Env = Env(
    redisUrl: Option<string>, redisToken: Option<string>,
    s3Key: Option<string>, s3Secret: Option<string>, s3Bucket: Option<string>, s3Region: Option<string>)

  /** A JavaScript-truthy environment value: set and non-empty. */
  predicate Truthy(v: Option<string>) {
    v.Some? && v.value != ""
  }

  datatype KeyValueAdapter = RedisStorageAdapter | LocalStorageAdapter

  datatype UploadAdapter = LocalUploadAdapter

  /** The two static caches of `StorageFactory`. */
  datatype Factory = Factory(storage: Option<KeyValueAdapter>, upload: Option<UploadAdapter>)

  /** The adapter a fresh selection picks: Redis only when both variables are truthy and the
      client could be built (`redisBuilds` is whether `new Redis(...)` returned normally). */
  predicate PicksRedis(env: Env, redisBuilds: bool) {
    Truthy(env.redisUrl) && Truthy(env.redisToken) && redisBuilds
  }

  /** `getStorageAdapter`. */
  function GetStorageAdapter(f: Factory, env: Env, redisBuilds: bool): (r: Reply<Factory, KeyValueAdapter>)
    ensures r.state.storage == Some(r.value) && r.state.upload == f.upload
    ensures f.storage.Some? ==> r.value == f.storage.value
    ensures f.storage.None? ==> (r.value == RedisStorageAdapter <==> PicksRedis(env, redisBuilds))
  {
    if f.storage.Some? then Reply(f, f.storage.value)
    else
      var chosen :=
        if Truthy(env.redisUrl) && Truthy(env.redisToken) then
          (if redisBuilds then RedisStorageAdapter else LocalStorageAdapter)
        else LocalStorageAdapter;
      Reply(f.(storage := Some(chosen)), chosen)
  }

  /** `getUploadAdapter`: both branches of the S3 check pick the local adapter. */
  function GetUploadAdapter(f: Factory, env: Env): (r: Reply<Factory, UploadAdapter>)
    ensures r.value == LocalUploadAdapter
    ensures r.state.upload == Some(r.value) && r.state.storage == f.storage
  {
    if f.upload.Some? then Reply(f, f.upload.value)
    else
      var hasS3 := Truthy(env.s3Key) && Truthy(env.s3Secret) && Truthy(env.s3Bucket) && Truthy(env.s3Region);
      var chosen := if hasS3 then LocalUploadAdapter else LocalUploadAdapter;
      Reply(f.(upload := Some(chosen)), chosen)
  }

  /** `reset`: clears both caches. */
  function Reset(f: Factory): (r: Factory)
    ensures r.storage.None? && r.upload.None?
  {
    Factory(None, None)
  }

  /** Selection happens once: later calls return the first adapter whatever the environment. */
  lemma SelectionIsMemoised(f: Factory, env1: Env, builds1: bool, env2: Env, builds2: bool)
    ensures var first := GetStorageAdapter(f, env1, builds1);
      GetStorageAdapter(first.state, env2, builds2) == first
    ensures var first := GetUploadAdapter(f, env1);
      GetUploadAdapter(first.state, env2) == first
  {
  }

  /** After `reset`, the next call selects again from the current environment. */
  lemma ResetReselects(f: Factory, env: Env, redisBuilds: bool)
    ensures GetStorageAdapter(Reset(f), env, redisBuilds).value
         == (if PicksRedis(env, redisBuilds) then RedisStorageAdapter else LocalStorageAdapter)
  {
  }

  /** The backends behind the key-value adapters: the Redis key space and the local store. */
  datatype Backends = Backends(redis: map<string, string>, local: LocalStorage.Store)

  /** Redis `EXISTS key`: the number of the given keys that exist. */
  function RedisExistsReply(m: map<string, string>, key: string): (n: int)
    ensures 0 <= n <= 1
    ensures n == 1 <==> key in m
  {
    if key in m then 1 else 0
  }

  function AdapterSet(a: KeyValueAdapter, b: Backends, key: string, value: string, now: int)
    : Reply<Backends, Result<(), IoError>>
  {
    match a
    case RedisStorageAdapter => Reply(b.(redis := b.redis[key := value]), Ok(()))
    case LocalStorageAdapter =>
      var r := LocalStorage.Set(b.local, key, value, now);
      Reply(b.(local := r.state), r.value)
  }

  function AdapterGet(a: KeyValueAdapter, b: Backends, key: string): Reply<Backends, Option<string>> {
    match a
    case RedisStorageAdapter => Reply(b, if key in b.redis then Some(b.redis[key]) else None)
    case LocalStorageAdapter =>
      var r := LocalStorage.Get(b.local, key);
      Reply(b.(local := r.state), r.value)
  }

  function AdapterDel(a: KeyValueAdapter, b: Backends, key: string): Backends {
    match a
    case RedisStorageAdapter => b.(redis := b.redis - {key})
    case LocalStorageAdapter => b.(local := LocalStorage.Del(b.local, key))
  }

  /** `exists`: for Redis, whether `EXISTS` replied exactly 1. */
  function AdapterExists(a: KeyValueAdapter, b: Backends, key: string): (r: Reply<Backends, bool>)
    ensures a.RedisStorageAdapter? ==> r == Reply(b, key in b.redis)
  {
    match a
    case RedisStorageAdapter => Reply(b, RedisExistsReply(b.redis, key) == 1)
    case LocalStorageAdapter =>
      var r := LocalStorage.Exists(b.local, key);
      Reply(b.(local := r.state), r.value)
  }

  /** Both adapters agree that a key exists exactly when `get` finds a value for it. */
  lemma ExistsMatchesGet(a: KeyValueAdapter, b: Backends, key: string)
    ensures AdapterExists(a, b, key).value <==> AdapterGet(a, b, key).value.Some?
  {
  }

  /** Round trip through either adapter: a successful `set` is read back by `get`, and a `del`
      makes `get` find nothing. */
  lemma AdapterRoundTrip(a: KeyValueAdapter, b: Backends, key: string, value: string, now: int)
    ensures AdapterSet(a, b, key, value, now).value.Ok? ==>
      AdapterGet(a, AdapterSet(a, b, key, value, now).state, key).value == Some(value)
    ensures AdapterGet(a, AdapterDel(a, b, key), key).value == None
  {
    if a.LocalStorageAdapter? {
      if AdapterSet(a, b, key, value, now).value.Ok? {
        LocalStorage.SetThenGet(b.local, key, value, now);
      }
      LocalStorage.DelThenGet(b.local, key);
    }
  }

  /** The local adapter forwards arguments and results unchanged. */
  lemma LocalAdapterForwards(b: Backends, key: string, value: string, now: int)
    ensures AdapterGet(LocalStorageAdapter, b, key).value == LocalStorage.Get(b.local, key).value
    ensures AdapterSet(LocalStorageAdapter, b, key, value, now).value == LocalStorage.Set(b.local, key, value, now).value
    ensures AdapterExists(LocalStorageAdapter, b, key).value == LocalStorage.Exists(b.local, key).value
  {
  }

  /** The upload adapter's operations, forwarded to the local upload service. */
  function AdapterUpload(a: UploadAdapter, s: LocalUpload.Service, id: string, originalName: string,
                         content: seq<LocalUpload.byte>, now: int)
    : Reply<LocalUpload.Service, Result<LocalUpload.Uploaded, IoError>>
  {
    match a
    case LocalUploadAdapter => LocalUpload.UploadFile(s, id, originalName, content, now)
  }

  function AdapterGetFile(a: UploadAdapter, s: LocalUpload.Service, key: string)
    : Reply<LocalUpload.Service, Option<seq<LocalUpload.byte>>>
  {
    match a
    case LocalUploadAdapter => LocalUpload.GetFile(s, key)
  }

  function AdapterDeleteFile(a: UploadAdapter, s: LocalUpload.Service, key: string): LocalUpload.Service {
    match a
    case LocalUploadAdapter => LocalUpload.DeleteFile(s, key)
  }

  /** The upload round trip carries over to the upload adapter. */
  lemma UploadAdapterRoundTrip(a: UploadAdapter, s: LocalUpload.Service, id: string, originalName: string,
                               content: seq<LocalUpload.byte>, now: int)
    requires AdapterUpload(a, s, id, originalName, content, now).value.Ok?
    ensures var u := AdapterUpload(a, s, id, originalName, content, now);
      && AdapterGetFile(a, u.state, u.value.value.key).value == Some(content)
      && AdapterGetFile(a, AdapterDeleteFile(a, u.state, u.value.value.key), u.value.value.key).value == None
  {
    var u := AdapterUpload(a, s, id, originalName, content, now);
    LocalUpload.UploadThenGet(s, id, originalName, content, now);
    LocalUpload.DeleteThenGet(u.state, u.value.value.key);
  }
}

=== FILE: strings.dfy ===
/** The JavaScript string operations the model relies on, over `seq<char>`. */
module Strings {
  import opened Results

  predicate StartsWith(s: string, prefix: string) {
    |prefix| <= |s| && s[..|prefix|] == prefix
  }

  predicate EndsWith(s: string, suffix: string) {
    |suffix| <= |s| && s[|s| - |suffix|..] == suffix
  }

  /** `pat` occurs in `s` starting at index `i`. */
  predicate OccursAt(s: string, pat: string, i: nat) {
    i + |pat| <= |s| && s[i..i + |pat|] == pat
  }

  /** `String.prototype.includes`. */
  predicate Contains(s: string, pat: string) {
    exists i: nat | i <= |s| :: OccursAt(s, pat, i)
  }

  /** The first index at or after `from` where `pat` occurs. */
  function IndexFrom(s: string, pat: string, from: nat): (r: Option<nat>)
    decreases |s| - from
    ensures r.Some? ==> from <= r.value && OccursAt(s, pat, r.value)
    ensures r.Some? ==> forall j: nat :: from <= j < r.value ==> !OccursAt(s, pat, j)
    ensures r.None? ==> forall j: nat :: from <= j ==> !OccursAt(s, pat, j)
  {
    if from + |pat| > |s| then None
    else if OccursAt(s, pat, from) then Some(from)
    else IndexFrom(s, pat, from + 1)
  }

  /** `String.prototype.indexOf`, with `None` for -1. */
  function IndexOf(s: string, pat: string): (r: Option<nat>)
    ensures r.Some? ==> OccursAt(s, pat, r.value)
    ensures r.Some? ==> forall j: nat :: j < r.value ==> !OccursAt(s, pat, j)
    ensures r.None? <==> !Contains(s, pat)
  {
    IndexFrom(s, pat, 0)
  }

  /** `s.replace(pat, rep)` with a string pattern: only the first occurrence is replaced.
      The replacements the model passes are empty or `StringIO(csv_data_<suffix>)`, where the
      suffix comes from `Math.random().toString(36)` and so is taken to hold only base-36 digits:
      none contains `$`, so no substitution pattern applies. */
  function ReplaceFirst(s: string, pat: string, rep: string): (r: string)
    ensures !Contains(s, pat) ==> r == s
    ensures Contains(s, pat) ==> exists i: nat :: OccursAt(s, pat, i) && r == s[..i] + rep + s[i + |pat|..]
  {
    match IndexOf(s, pat)
    case None => s
    case Some(i) => s[..i] + rep + s[i + |pat|..]
  }

  /** Where the pattern occurs, `ReplaceFirst` splices the replacement in at its first index. */
  lemma ReplaceFirstAtIndex(s: string, pat: string, rep: string)
    requires Contains(s, pat)
    ensures IndexOf(s, pat).Some?
    ensures ReplaceFirst(s, pat, rep) == s[..IndexOf(s, pat).value] + rep + s[IndexOf(s, pat).value + |pat|..]
  {
  }

  /** The index of the last occurrence of `c` in `s`. */
  function LastIndexOf(s: string, c: char): (r: Option<nat>)
    ensures r.Some? ==> r.value < |s| && s[r.value] == c
    ensures r.Some? ==> forall j :: r.value < j < |s| ==> s[j] != c
    ensures r.None? ==> forall j :: 0 <= j < |s| ==> s[j] != c
  {
    if |s| == 0 then None
    else if s[|s| - 1] == c then Some(|s| - 1)
    else LastIndexOf(s[..|s| - 1], c)
  }

  /** `s.split(c).pop()`: the text after the last `c`, or all of `s` when `c` does not occur. */
  function AfterLast(s: string, c: char): (r: string)
    ensures c !in r
    ensures EndsWith(s, r)
    ensures c !in s ==> r == s
    ensures c in s ==> |r| < |s| && s[|s| - |r| - 1] == c
  {
    match LastIndexOf(s, c)
    case None => s
    case Some(i) => s[i + 1..]
  }

  /** An occurrence found in a suffix is an occurrence in the whole string. */
  lemma ContainsAfterPrepend(pre: string, s: string, pat: string)
    requires Contains(s, pat)
    ensures Contains(pre + s, pat)
  {
    var i: nat :| i <= |s| && OccursAt(s, pat, i);
    assert (pre + s)[|pre| + i..|pre| + i + |pat|] == s[i..i + |pat|];
    assert OccursAt(pre + s, pat, |pre| + i);
  }
}

=== FILE: upload_route.dfy ===
/** The `POST` handler of the local upload endpoint: it validates the submitted form field and
    stores the file through the local upload service. */
module UploadRoute {
  import opened Results
  import opened Strings
  import opened FileSystem
  import opened LocalUpload

  /** 30 MiB, the largest accepted upload. */
  const MaxSize: nat := 30 * 1024 * 1024

  const CsvType: string := "text/csv"
  const CsvSuffix: string := ".csv"

  const NoFileMessage: string := "No file provided"
  const OnlyCsvMessage: string := "Only CSV files are allowed"
  const TooLargeMessage: string := "File size must be less than 30MB"
  const FailedMessage: string := "Failed to upload file"

  /** A `File` from the form: its name, its declared MIME type and its bytes (`size` is their number). */
  datatype UploadedFile = UploadedFile(name: string, mime: string, bytes: seq<byte>)

  /** What `formData.get('file')` yields: nothing, a text value, or a file. */
  datatype FormField = NoField | TextField(text: string) | FileField(file: UploadedFile)

  /** The request body: a form that could not be parsed, or the value of its `file` field. */
  datatype Form = Unreadable | Form(file: FormField)

  datatype Body = ErrorBody(error: string) | Success(url: string, key: string, size: nat, name: string)

  datatype Response = Response(status: nat, body: Body)

  /** The file passes the type check when either its MIME type or its name says CSV. */
  predicate IsCsv(f: UploadedFile) {
    f.mime == CsvType || EndsWith(f.name, CsvSuffix)
  }

  /** `POST`. A form that cannot be parsed, a non-empty text value (reading `.name` of a string
      throws) and a failed upload all end in the catch-all 500; `id` and `now` are what the
      service draws from `generateId` and the clock. */
  function Post(s: Service, form: Form, id: string, now: int): (r: Reply<Service, Response>)
    ensures r.value.status == 200 || r.value.status == 400 || r.value.status == 500
    ensures r.value.status == 200 <==>
              form.Form? && form.file.FileField? && IsCsv(form.file.file) && |form.file.file.bytes| <= MaxSize
              && UploadFile(s, id, form.file.file.name, form.file.file.bytes, now).value.Ok?
    ensures r.value.status != 200 ==> r.value.body.ErrorBody? && r.state.disk.files == s.disk.files
    ensures r.value.status == 500 <==>
              form.Unreadable? || (form.file.TextField? && form.file.text != [])
              || (form.file.FileField? && IsCsv(form.file.file) && |form.file.file.bytes| <= MaxSize
                  && UploadFile(s, id, form.file.file.name, form.file.file.bytes, now).value.Err?)
    ensures r.value.status == 500 ==> r.value.body == ErrorBody(FailedMessage)
    ensures r.value.status == 200 ==>
              var u := UploadFile(s, id, form.file.file.name, form.file.file.bytes, now);
              r.state == u.state
              && r.value.body == Success(u.value.value.url, u.value.value.key, |form.file.file.bytes|, form.file.file.name)
  {
    match form
    case Unreadable => Reply(s, Response(500, ErrorBody(FailedMessage)))
    case Form(NoField) => Reply(s, Response(400, ErrorBody(NoFileMessage)))
    case Form(TextField(text)) =>
      if text == [] then Reply(s, Response(400, ErrorBody(NoFileMessage)))
      else Reply(s, Response(500, ErrorBody(FailedMessage)))
    case Form(FileField(f)) =>
      if !IsCsv(f) then Reply(s, Response(400, ErrorBody(OnlyCsvMessage)))
      else if |f.bytes| > MaxSize then Reply(s, Response(400, ErrorBody(TooLargeMessage)))
      else
        var u := UploadFile(s, id, f.name, f.bytes, now);
        match u.value
        case Ok(up) => Reply(u.state, Response(200, Success(up.url, up.key, |f.bytes|, f.name)))
        case Err(_) => Reply(u.state, Response(500, ErrorBody(FailedMessage)))
  }

  /** The checks run in order: a missing file first, then the type, then the size. */
  lemma ChecksInOrder(s: Service, f: UploadedFile, id: string, now: int)
    ensures Post(s, Form(NoField), id, now).value == Response(400, ErrorBody(NoFileMessage))
    ensures Post(s, Form(TextField([])), id, now).value == Response(400, ErrorBody(NoFileMessage))
    ensures !IsCsv(f) ==> Post(s, Form(FileField(f)), id, now).value == Response(400, ErrorBody(OnlyCsvMessage))
    ensures IsCsv(f) && |f.bytes| > MaxSize ==>
              Post(s, Form(FileField(f)), id, now).value == Response(400, ErrorBody(TooLargeMessage))
  {
  }

  /** A rejected request stores nothing. */
  lemma RejectedStoresNothing(s: Service, form: Form, id: string, now: int)
    requires Post(s, form, id, now).value.status == 400
    ensures Post(s, form, id, now).state == s
  {
  }

  /** Every CSV file of up to 30 MiB, 30 MiB included, is accepted when the store can take it. */
  lemma SizeLimitInclusive(s: Service, f: UploadedFile, id: string, now: int)
    requires IsCsv(f) && |f.bytes| <= MaxSize
    requires Valid(s) && Path(UploadsDir, UploadKey(id, f.name)) !in s.disk.broken
    ensures Post(s, Form(FileField(f)), id, now).value.status == 200
  {
  }

  /** Either the MIME type or the name alone is enough to pass the type check: `POST` answers
      "Only CSV files are allowed", whatever the size, exactly when neither says CSV. */
  lemma EitherCsvSignSuffices(s: Service, name: string, mime: string, bytes: seq<byte>, id: string, now: int)
    ensures mime == CsvType ==> IsCsv(UploadedFile(name, mime, bytes))
    ensures EndsWith(name, CsvSuffix) ==> IsCsv(UploadedFile(name, mime, bytes))
    ensures Post(s, Form(FileField(UploadedFile(name, mime, bytes))), id, now).value
              == Response(400, ErrorBody(OnlyCsvMessage))
            <==> mime != CsvType && !EndsWith(name, CsvSuffix)
  {
  }

  /** An accepted upload is stored under its key and can be fetched back. */
  lemma AcceptedIsStored(s: Service, f: UploadedFile, id: string, now: int)
    requires Post(s, Form(FileField(f)), id, now).value.status == 200
    ensures var r := Post(s, Form(FileField(f)), id, now);
      r.value.body.Success? && GetFile(r.state, r.value.body.key).value == Some(f.bytes)
  {
  }
}
